=== FILE: README.md ===
# Pumkin's Avatar Tools — module registry, sub-tools and component destroyers in Dafny

This project models the core of the tools window of the Pumkin's Avatar Tools
Unity editor plugin:

- **`MainUI`**: the window's list of UI modules. It covers
  - appending a module unless it is null;
  - case-insensitive lookup by name;
  - removal by reference, and removal of every module with a given name (which returns a count);
  - a stable sort by `OrderInUI`;
  - the lazily created orphan-holder module.
- **`UIModuleBase`**: the constructor defaults, the lazily built label, and the stable ordering of the sub-tools.
- **`SubToolBase`**: the constructor defaults, the `AllowUpdate` flag and the editor update callback it (un)subscribes, and the guarded `Prepare → DoAction → Finish` pipeline behind `TryExecute`.
- **`ComponentDestroyerBase`**: a tool that removes every component of some types from the selected object's hierarchy. It covers
  - the type registry built from type names;
  - `Prepare`;
  - the sweep per type, which respects the ignore list and survives failing destructions;
  - the pipeline;
  - the completion message.

The model is functional. Each C# object is an immutable record, and each mutating member is a function that returns the new record. Host calls are handled as follows:

- **Host side effects** become entries in a trace of `Host.Effect` values: logging, `Undo`, `PrefabUtility`, subscribing to `EditorApplication.update`, and destroying components.
- **Foreign lookups** are parameters:
  - `TypeHelpers.GetType` is a partial function from names to types;
  - the ignore list is a predicate;
  - `StringHelpers.ToTitleCase` is a partial function;
  - whether destroying a component throws, and with what message, is a function;
  - the hierarchy that `GetComponentsInChildren` enumerates is a sequence of components;
  - the type test that call applies is a relation `isA(a, b)`: a component of type `a` is a `b`, being of that type or of a subclass.
- **References and values**:
  - a null reference is `Host.Option.None`;
  - object identity is a `handle`;
  - an exception is `Host.Result.Throws`.
- **`implicit operator bool`**: both operators in `MainUI.cs:103-106` and `UIModuleBase.cs:103-106` are the non-null test `Host.Truthy`.

Modules:

| file | module | contents |
|---|---|---|
| `host.dfy` | `Host` | nullable references, exceptions, scene objects, effects, `x ?? (x = new …)` caching, `char.IsWhiteSpace` |
| `seqs.dfy` | `Seqs` | subsequences and filtering |
| `stable_sort.dfy` | `StableSort` | `OrderBy(...).ToList()` as a stable insertion sort, with an independent specification |
| `case_fold.dfy` | `CaseFold` | case-insensitive string equality |
| `pipeline.dfy` | `Pipeline` | the try/catch `Prepare && Act → Finish` shape of `TryExecute`, and the `Prepare` result both tool kinds return |
| `sub_tool.dfy` | `SubTools` | `SubToolBase` |
| `ui_module.dfy` | `UIModules` | `UIModuleBase` |
| `main_ui.dfy` | `MainUI` | `MainUI` |
| `component_destroyer.dfy` | `ComponentDestroyers` | `ComponentDestroyerBase` |

Where the code and its own documentation disagree, the model follows the code.
The comment on `OrderModules` (`MainUI.cs:95-97`) says the orphan holder is then placed last. The code only sorts the list, and so does the model.

Source paths below are relative to the repository root.

## Model

| member | source | states |
|---|---|---|
| StableSort.OrderBy | Scripts/Editor/Implementation/MainUI.cs:100 | Sorting a list that holds a null entry throws `NullReferenceException`. Otherwise the result is a permutation of the input. It is non-decreasing in the key. For every key it lists the elements with that key in input order, so the sort is stable. |
| StableSort.SortByCharacterization | Scripts/Editor/Implementation/MainUI.cs:100 | A list is the stable sort of `xs` exactly when it is ordered by key and keeps every key class of `xs` in input order. So the specification determines the result uniquely. |
| StableSort.SortByIdempotent | Scripts/Editor/Implementation/MainUI.cs:100 | Sorting an already sorted list again changes nothing. |
| CaseFold.EqualsIgnoreCaseMeaning | Scripts/Editor/Implementation/MainUI.cs:76 | Under the model's ASCII case fold, two names are equal exactly when they have the same length and agree character by character up to case. The relation is reflexive and symmetric. |
| Pipeline.TryRun | Scripts/Editor/Implementation/Tools/Base/SubToolBase.cs:117-132 | The run succeeds exactly when prepare returns true, the action returns true and finish returns, all without throwing. The action runs only after a successful prepare, and finish only after a successful action. The exception caught is the one raised by the last stage that ran. A successful run catches nothing. |
| SubTools.NewSubTool | Scripts/Editor/Implementation/Tools/Base/SubToolBase.cs:61-77 | Without a `UIDefinitionAttribute` the name is "Base Tool", the description is "Base Tool description" and the order is 0. With the attribute, all three come from it. Updates start disallowed, with no callback and no subscription. |
| SubTools.SetupUpdateCallback | Scripts/Editor/Implementation/Tools/Base/SubToolBase.cs:79-86 | Afterwards a callback exists. An existing callback is kept, and nothing else happens. A missing callback is created once, bound to this tool, with a log line. |
| SubTools.SetAllowUpdate | Scripts/Editor/Implementation/Tools/Base/SubToolBase.cs:16-38 | Setting the flag to its current value does nothing. A subscribe happens exactly when the flag goes from false to true. An unsubscribe happens exactly when it goes from true to false. An existing callback is never replaced. The subscription invariant is preserved, and no other field changes. |
| SubTools.TogglingKeepsOneSubscription | Scripts/Editor/Implementation/Tools/Base/SubToolBase.cs:16-38 | After any sequence of assignments, the callback is subscribed exactly once while updates are allowed and not at all otherwise. It was created at most once and never replaced, and the last assignment wins. The subscribe and unsubscribe calls made balance to the current subscription count. |
| SubTools.SetAllowUpdateIdempotent | Scripts/Editor/Implementation/Tools/Base/SubToolBase.cs:25-26 | Assigning the same value a second time has no effect at all. |
| SubTools.Prepare | Scripts/Editor/Implementation/Tools/Base/SubToolBase.cs:134-148 | `Prepare` fails exactly for a null target, which logs "No avatar selected". Otherwise it registers a hierarchy undo under the tool's name. It records prefab modifications exactly when the target is in no scene. |
| SubTools.TryExecute | Scripts/Editor/Implementation/Tools/Base/SubToolBase.cs:117-132 | `TryExecute` succeeds exactly when the target is non-null and `DoAction` returns true without throwing. `DoAction` runs only for a non-null target. The completion message is logged exactly on success. An exception is logged exactly when `DoAction` throws. |
| UIModules.NewModule | Scripts/Editor/Implementation/Modules/Base/UIModuleBase.cs:40-60 | Without the attribute, name, description and configuration are "Generic Module", "A generic module" and "generic". With the attribute, name, description and order come from it and the configuration stays null. The module starts collapsed, with empty sub-tool and child lists. |
| UIModules.NewModuleIsReady | Scripts/Editor/Implementation/Modules/Base/UIModuleBase.cs:25-60 | A new module can be used right away. Ordering its sub-tools succeeds and changes nothing. Its first label is built from the name and description the constructor chose, such as "Generic Module" and "A generic module" without the attribute, and is then cached. |
| UIModules.GetLabelContent | Scripts/Editor/Implementation/Modules/Base/UIModuleBase.cs:25-30 | A cached label is returned unchanged. Otherwise a label built from the current name and description is returned. Either way the returned label is cached afterwards. |
| UIModules.SetLabelContent | Scripts/Editor/Implementation/Modules/Base/UIModuleBase.cs:31-34 | Assigning replaces the cached label and changes nothing else. |
| UIModules.LabelContentIsCached | Scripts/Editor/Implementation/Modules/Base/UIModuleBase.cs:25-35 | A second read returns the first label and changes nothing, even after a rename. An assigned label is what the next read returns. Assigning null makes the next read rebuild the label from the current name and description. |
| UIModules.OrderSubTools | Scripts/Editor/Implementation/Modules/Base/UIModuleBase.cs:95-101 | A null or empty sub-tool list is left alone. A list with a null entry throws `NullReferenceException`. Otherwise the list becomes a stable, sorted permutation of itself. Nothing else in the module changes. |
| UIModules.OrderSubToolsIdempotent | Scripts/Editor/Implementation/Modules/Base/UIModuleBase.cs:95-101 | Ordering the sub-tools a second time changes nothing. |
| MainUI.NewUI | Scripts/Editor/Implementation/MainUI.cs:26-31 | A new window holds the given list and no orphan holder yet. |
| MainUI.AddModule | Scripts/Editor/Implementation/MainUI.cs:79-83 | Adding null leaves the window unchanged. Adding a module appends it at the end: the length grows by one and the earlier entries are unchanged. |
| MainUI.Find | Scripts/Editor/Implementation/MainUI.cs:74-77 | The lookup returns null exactly when every entry is a module with another name. A hit is the first entry whose name equals the one sought, ignoring case. It throws `NullReferenceException` exactly when a null entry comes before any hit. |
| MainUI.RemoveFirst | Scripts/Editor/Implementation/MainUI.cs:85-88 | The result reports a removal exactly when the reference is in the list. Only its first occurrence goes, and the entries before and after it keep their order. |
| MainUI.RemoveModule | Scripts/Editor/Implementation/MainUI.cs:85-88 | `RemoveModule` returns true exactly when the module was listed. Then only its first occurrence goes, and the entries before and after it keep their order. Otherwise the window is unchanged. The orphan holder is untouched. |
| MainUI.RemoveNamed | Scripts/Editor/Implementation/MainUI.cs:90-93 | A list with a null entry throws. Otherwise:<br>- no survivor has the name;<br>- the survivors are a subsequence of the list, so their order is kept;<br>- every module with another name survives;<br>- the returned count is the number of modules with the name, which is the number of entries removed. |
| MainUI.RemoveModulesNamed | Scripts/Editor/Implementation/MainUI.cs:90-93 | `RemoveModule(string)` throws `NullReferenceException` exactly on a null entry. Otherwise:<br>- it leaves no module with the name behind;<br>- the remaining list is a subsequence of the old one;<br>- every module with another name remains;<br>- it returns the number of modules with the name, which is the number of entries removed;<br>- nothing else in the window changes. |
| MainUI.RemoveNamedThenFind | Scripts/Editor/Implementation/MainUI.cs:90-93 | After every module with a name is removed, looking the name up finds nothing and does not throw. |
| MainUI.AddThenRemoveModule | Scripts/Editor/Implementation/MainUI.cs:79-88 | Adding a module that is not listed and then removing it restores the window, and the removal reports true. |
| MainUI.AddThenFindModule | Scripts/Editor/Implementation/MainUI.cs:74-83 | If the lookup for a name currently finds nothing and does not throw, then after a module with that name is added, the lookup finds that module. |
| MainUI.OrderModules | Scripts/Editor/Implementation/MainUI.cs:98-101 | A list with a null entry throws `NullReferenceException`. Otherwise the modules become a permutation of the old list, non-decreasing in `OrderInUI`, with ties in their old order. The orphan holder is untouched. |
| MainUI.OrderModulesIdempotent | Scripts/Editor/Implementation/MainUI.cs:98-101 | Ordering the modules a second time changes nothing. |
| MainUI.GetOrphanHolder | Scripts/Editor/Implementation/MainUI.cs:18-24 | The getter never returns null. An existing holder is returned unchanged. A missing one is created and stored. The module list is untouched. |
| MainUI.OrphanHolderIsStable | Scripts/Editor/Implementation/MainUI.cs:18-24 | After the first read the holder exists, and later reads return the same instance without changing anything. If `new OrphanHolderModule()` gives an object that is not in the list, which a fresh object never is, then the holder the first read creates is not one of the listed modules. |
| ComponentDestroyers.Put | Scripts/Editor/AvatarTools/Core/Base/ComponentDestroyerBase.cs:60 | The dictionary indexer keeps an existing key in its place and appends a new key at the end. The written entry holds the new value, and the entries of other types are unchanged. With distinct keys, which a dictionary always has, the keys stay distinct and the key's one entry holds the written value. |
| ComponentDestroyers.DistinctProperties | Scripts/Editor/AvatarTools/Core/Base/ComponentDestroyerBase.cs:50-64 | The registry's key order has no repetitions and holds exactly the elements of the input. It starts with the first element of the input. |
| ComponentDestroyers.Register | Scripts/Editor/AvatarTools/Core/Base/ComponentDestroyerBase.cs:50-64 | The registry keys are exactly the distinct types of the non-blank names that resolve, in order of first occurrence. Every entry is enabled. Each blank name is logged as invalid. |
| ComponentDestroyers.NewDestroyer | Scripts/Editor/AvatarTools/Core/Base/ComponentDestroyerBase.cs:48-75 | Construction throws `InvalidOperationException` (from `First`) exactly when no name resolves. Otherwise:<br>- the keys are distinct and all enabled;<br>- the keys are exactly the resolved types;<br>- `FirstValidType` is the first registered key;<br>- the `UIDefs` name is the preset one if there is one, else the title-cased first type name, else "Invalid Destroyer". |
| ComponentDestroyers.Prepare | Scripts/Editor/AvatarTools/Core/Base/ComponentDestroyerBase.cs:105-118 | `Prepare` fails exactly when the registry is empty or the target is null. An empty registry logs an error that names the class. A null target fails silently. On success it registers an object undo named after the `UIDefs`. |
| ComponentDestroyers.ConstructedDestroyerPrepares | Scripts/Editor/AvatarTools/Core/Base/ComponentDestroyerBase.cs:48-118 | A destroyer the constructor returns has a type, so its `Prepare` refuses exactly a null target and never logs an error. |
| ComponentDestroyers.DestroyByType | Scripts/Editor/AvatarTools/Core/Base/ComponentDestroyerBase.cs:170-187 | A component survives the sweep for a type exactly when it is not of that type or a subclass, sits on an ignored object, or its destruction throws. A failure does not stop the sweep. The survivors keep their order. A destroy is requested exactly for the components that go. |
| ComponentDestroyers.Visit | Scripts/Editor/AvatarTools/Core/Base/ComponentDestroyerBase.cs:172-185 | Visiting one component requests at most one thing. A destroy is requested for it exactly when it is of the swept type or a subclass, is not ignored, and destroying it does not throw. |
| ComponentDestroyers.TargetedMeaning | Scripts/Editor/AvatarTools/Core/Base/ComponentDestroyerBase.cs:164-166 | A component type is swept exactly when some enabled registry entry's type is that type or a base class of it. |
| ComponentDestroyers.SweepsMeaning | Scripts/Editor/AvatarTools/Core/Base/ComponentDestroyerBase.cs:162-168 | Sweeping every enabled type in turn keeps, in order, exactly the components that are not destroyed. A component is destroyed exactly when some enabled type is its type or a base of it, its object is not ignored, and destroying it does not throw. A destroy is requested exactly for those components. |
| ComponentDestroyers.DoDestroyComponents | Scripts/Editor/AvatarTools/Core/Base/ComponentDestroyerBase.cs:162-168 | `DoDestroyComponents` returns true. A component goes exactly when some enabled registry type is its type or a base of it, its object is not ignored, and its destruction does not throw. So components matched by no enabled type are untouched. A destroy is requested exactly for the components that go. |
| ComponentDestroyers.TryDestroyComponents | Scripts/Editor/AvatarTools/Core/Base/ComponentDestroyerBase.cs:145-160 | `TryDestroyComponents` succeeds exactly when `Prepare` does. A refused run leaves the hierarchy untouched and does only what `Prepare` did. A successful run starts with the undo and removes exactly what `DoDestroyComponents` removes. It requests exactly those destructions and ends with the completion message as `Finish` writes it. |
| ComponentDestroyers.AppendedNamesJoin | Scripts/Editor/AvatarTools/Core/Base/ComponentDestroyerBase.cs:122-125 | The builder holds the enabled types' plural names joined by ", ", plus one trailing ", ". It is empty when no type is enabled. |
| ComponentDestroyers.FinishNamesAsWrittenTrailingComma | Scripts/Editor/AvatarTools/Core/Base/ComponentDestroyerBase.cs:122-132 | As written, the listed names end in a stray "," whenever some type is enabled. When none is, the message falls back to the `UIDefs` name. |
| ComponentDestroyers.FinishNamesAsWrittenExample | Scripts/Editor/AvatarTools/Core/Base/ComponentDestroyerBase.cs:127-128 | For a single enabled type `DynamicBone`, the code as written lists "DynamicBones,", where "DynamicBones" is intended. |
| ComponentDestroyers.FinishNamesJoin | Scripts/Editor/AvatarTools/Core/Base/ComponentDestroyerBase.cs:122-132 | The intended names are exactly the enabled types' plural names joined by ", ". The `UIDefs` name is used exactly when no type is enabled. |
| ComponentDestroyers.Finish | Scripts/Editor/AvatarTools/Core/Base/ComponentDestroyerBase.cs:120-135 | `Finish` logs "Successfully removed all <b>…</b> from <b>target</b>". When some type is enabled, the list holds the plural names of the enabled types joined by ", " and followed by a stray ",". When none is, it holds the `UIDefs` name. |
| ComponentDestroyers.FinishIntended | Scripts/Editor/AvatarTools/Core/Base/ComponentDestroyerBase.cs:120-135 | The intended message lists the enabled types' plural names joined by ", " with nothing after them, or the `UIDefs` name when no type is enabled. |
| ComponentDestroyers.FinishAgainstIntended | Scripts/Editor/AvatarTools/Core/Base/ComponentDestroyerBase.cs:120-135 | The message as written equals the intended one exactly when no type is enabled. Otherwise it is one character longer. |

## Left out

- **GUI drawing**: the `Draw`, `DrawHeader`, `DrawContent`, `DrawUI` and `CreateGUIContent` bodies are immediate-mode GUI calls. The sub-tool's lazily built `Content` is the same pattern as `LabelContent` and is not modelled separately.
- **Host calls** (`Undo`, `PrefabUtility`, `Debug.Log*`, `PumkinTools.Log*` and `EditorApplication.update`) are recorded as effects. Their own behaviour is outside the model, including any exception they might throw.
- **`SetupSettings`, `GetSettingsContainer` and the settings containers**: abstract or foreign. `Update` is an empty hook.
- CaseFold.EqualsIgnoreCase compares character by character after folding ASCII capitals only. `InvariantCultureIgnoreCase` is a linguistic comparison. It also folds non-ASCII letters, skips ignorable code points such as the soft hyphen U+00AD, and treats canonically equivalent sequences as equal, such as `é` and `e` followed by U+0301. So in the source, names of different lengths can match ("co\u00ADop" equals "coop"). The model does not capture this, because Unicode collation tables are outside it.
- **The type hierarchy** is the parameter `isA`. The model assumes nothing about it, not even that it is reflexive, so the type test `GetComponentsInChildren` applies is taken as given.
- MainUI.NewUI: the list handed to `new MainUI(modules)` is a sequence, so a null list is not modelled. Every later operation on a null list would throw `NullReferenceException`.
- MainUI.Find: the name sought and the module names are strings, so null names are not modelled. `string.Equals` holds for two nulls, so a null name would match only a module whose name is null.
- MainUI.RemoveNamed: null names are not modelled either. As in `MainUI.Find`, a null name would remove only modules whose name is null.
- MainUI.AddModule: the window's list is a value. When the caller keeps a reference to the list it passed to the constructor, the window and the caller see each other's changes, and that sharing is not modelled.
- MainUI.RemoveNamed: when a null entry makes `List.RemoveAll` throw, the model says only that the call throws. The partly compacted list it may leave behind is not modelled.
- MainUI.RemoveModulesNamed: a throwing call leaves the window's list partly compacted, and the model returns no window for it. `List.RemoveAll` moves each survivor forward as it goes and throws when the predicate reaches the null entry. So removing "x" from `[A "x", B "y", null]` leaves `[B, B, null]`: A is lost and B is duplicated. The model says only that the call throws `NullReferenceException`.
- ComponentDestroyers.Register: the names array is a sequence of strings. A null array and null names are not modelled. A null name behaves like an empty one, and blank names are logged the same way.
- ComponentDestroyers.TryDestroyComponents: the base stages throw nothing in the model, so the catch branch is never taken there. The general catching behaviour is `Pipeline.TryRun`, which `SubTools.TryExecute` uses. Overridden `Prepare`, `DoDestroyComponents` or `Finish` stages in subclasses are not modelled.
- **Component-destroyer settings, icons and `GameConfigurationString`** are not modelled.
- **Other files**: `PumkinsCameraPreset.cs`, `Styles.cs`, `DevModule.cs`, `ColliderDestroyer_Settings.cs` and `DynamicBoneDestroyer.cs` are outside the core.
  - The camera preset is float vector arithmetic over host transforms, plus asset I/O.
  - The styles are static GUI configuration.
  - The dev module is debug-only GUI.
  - The settings hold plain fields.
  - The bone destroyer is a one-line override.

## Findings

| source | as written | input that shows it | evidently intended | confidence | as-written member | corrected member |
|---|---|---|---|---|---|---|
| Scripts/Editor/AvatarTools/Core/Base/ComponentDestroyerBase.cs:127-128 | Each enabled type appends `"<Name>s, "`, then `sb.Remove(sb.Length - 1, 1)` drops only the final space. So the message lists "DynamicBones," with a trailing comma. | A destroyer whose single enabled type is `DynamicBone` | Drop the whole ", " separator, so the names read "DynamicBones" (and "As, Bs" for two types) | not executed | ComponentDestroyers.FinishNamesAsWritten, shown by ComponentDestroyers.FinishNamesAsWrittenExample and ComponentDestroyers.FinishNamesAsWrittenTrailingComma | ComponentDestroyers.FinishIntended, built from ComponentDestroyers.FinishNames and proved by ComponentDestroyers.FinishNamesJoin; ComponentDestroyers.FinishAgainstIntended compares it with ComponentDestroyers.Finish, which keeps the code as written |

=== FILE: case_fold.dfy ===
/** `StringComparison.InvariantCultureIgnoreCase`, approximated by folding
    the ASCII capitals to lower case. */
module CaseFold {

  function FoldChar(c: char): (r: char)
    ensures 'A' <= c <= 'Z' ==> r != c && 'a' <= r <= 'z'
    ensures 'A' <= c <= 'Z' ==> r as int == c as int + 32
    ensures !('A' <= c <= 'Z') ==> r == c
  {
    if 'A' <= c <= 'Z' then (c as int - 'A' as int + 'a' as int) as char else c
  }

  function Fold(s: string): (r: string)
    ensures |r| == |s|
    ensures forall i :: 0 <= i < |s| ==> r[i] == FoldChar(s[i])
  {
    if s == [] then [] else [FoldChar(s[0])] + Fold(s[1..])
  }

  /** `string.Equals(a, b, InvariantCultureIgnoreCase)` for non-null strings. */
  predicate EqualsIgnoreCase(a: string, b: string) {
    Fold(a) == Fold(b)
  }

  /** Ignoring case relates strings of equal length that agree character by
      character up to case, and it is an equivalence. */
  lemma EqualsIgnoreCaseMeaning(a: string, b: string)
    ensures EqualsIgnoreCase(a, b) <==>
            |a| == |b| && forall i :: 0 <= i < |a| ==> FoldChar(a[i]) == FoldChar(b[i])
    ensures EqualsIgnoreCase(a, a)
    ensures EqualsIgnoreCase(a, b) ==> EqualsIgnoreCase(b, a)
  {
    if |a| == |b| && forall i :: 0 <= i < |a| ==> FoldChar(a[i]) == FoldChar(b[i]) {
      assert Fold(a) == Fold(b);
    }
  }
}

=== FILE: component_destroyer.dfy ===
/**
 `ComponentDestroyerBase`: a tool that removes every component of some
 types from the selected object's hierarchy. Host calls are parameters:
 type lookup by full name is a partial function `resolve`, the ignore list
 is a predicate `ignored` on scene objects, and `destroyError` says which
 component destructions throw and with what message. The hierarchy is the
 sequence of its components in the order `GetComponentsInChildren` lists
 them, inactive objects included; which of them such a call returns for a
 registered type is the host's type relation `isA`, where `isA(a, b)` means
 a component of type `a` is a `b` (the same type or a subclass).
 */
module ComponentDestroyers {
  import opened Host
  import opened Seqs
  import Pipeline

  /** One entry of `ComponentTypesAndEnabled`. The dictionary is kept as a
      sequence in insertion order, which is the order it enumerates in. */
  datatype Entry = Entry(ctype: ComponentType, enabled: bool)

  /** A destroyer: its class name (for messages), its type registry, the
      first registered type, and the name of its `UIDefs`. */
  datatype Destroyer = Destroyer(
    className: string,
    registry: seq<Entry>,
    firstValidType: ComponentType,
    uiDefsName: string)

  // ---------------------------------------------------------------------
  // The type registry

  /** The registered types, in registry order. */
  function Keys(reg: seq<Entry>): (ks: seq<ComponentType>)
    ensures |ks| == |reg|
    ensures forall i :: 0 <= i < |reg| ==> ks[i] == reg[i].ctype
  {
    if reg == [] then [] else [reg[0].ctype] + Keys(reg[1..])
  }

  /** No type is registered twice. */
  ghost predicate DistinctKeys(reg: seq<Entry>) {
    forall i, j :: 0 <= i < j < |reg| ==> reg[i].ctype != reg[j].ctype
  }

  /** A component of type `t` is returned by the sweep of some enabled
      registered type. */
  ghost predicate Targeted(reg: seq<Entry>, t: ComponentType, isA: (ComponentType, ComponentType) -> bool)
  {
    reg != [] && (Targeted(reg[..|reg| - 1], t, isA) || (reg[|reg| - 1].enabled && isA(t, reg[|reg| - 1].ctype)))
  }

  /** Where `t` is registered, or `|reg|` when it is not. */
  function KeyIndex(reg: seq<Entry>, t: ComponentType): (i: nat)
    ensures i <= |reg|
    ensures forall j :: 0 <= j < i ==> reg[j].ctype != t
    ensures i < |reg| ==> reg[i].ctype == t
  {
    if reg == [] then 0
    else if reg[0].ctype == t then 0
    else
      var i := KeyIndex(reg[1..], t);
      assert forall j :: 1 <= j < |reg| ==> reg[j] == reg[1..][j - 1];
      i + 1
  }

  /** The dictionary indexer set `reg[t] = value`: an existing entry keeps its
      place and takes the new value; a new key goes at the end. */
  function Put(reg: seq<Entry>, t: ComponentType, value: bool): (r: seq<Entry>)
    ensures t in Keys(reg) ==> Keys(r) == Keys(reg)
    ensures t !in Keys(reg) ==> Keys(r) == Keys(reg) + [t]
    ensures forall i :: 0 <= i < |r| ==> r[i] == Entry(t, value) || (i < |reg| && r[i] == reg[i])
    ensures Entry(t, value) in r
    ensures forall i :: 0 <= i < |reg| && reg[i].ctype != t ==> r[i] == reg[i]
    ensures DistinctKeys(reg) ==> DistinctKeys(r)
    ensures DistinctKeys(reg) ==> forall i :: 0 <= i < |r| && r[i].ctype == t ==> r[i] == Entry(t, value)
  {
    var k := KeyIndex(reg, t);
    var e := Entry(t, value);
    if k < |reg| then
      var r := reg[k := e];
      KeysOfSameKey(reg, r);
      UpdateKeepsDistinct(reg, k, e);
      r
    else
      var r := reg + [e];
      assert forall i :: 0 <= i < |reg| ==> r[i] == reg[i];
      assert Keys(r) == Keys(reg) + [t];
      AppendKeepsDistinct(reg, e);
      r
  }

  /** Replacing an entry by one of the same type keeps the keys distinct,
      and then the replaced position is the only one with that type. */
  lemma UpdateKeepsDistinct(reg: seq<Entry>, k: nat, e: Entry)
    requires k < |reg| && reg[k].ctype == e.ctype
    ensures DistinctKeys(reg) ==> DistinctKeys(reg[k := e])
    ensures DistinctKeys(reg) ==> forall i :: 0 <= i < |reg| && i != k ==> reg[i].ctype != e.ctype
  {
    assert forall i :: 0 <= i < |reg| ==> reg[k := e][i].ctype == reg[i].ctype;
  }

  /** Appending an entry of a type not yet registered keeps the keys distinct. */
  lemma AppendKeepsDistinct(reg: seq<Entry>, e: Entry)
    requires forall j :: 0 <= j < |reg| ==> reg[j].ctype != e.ctype
    ensures DistinctKeys(reg) ==> DistinctKeys(reg + [e])
  {
    assert forall i :: 0 <= i < |reg| ==> (reg + [e])[i] == reg[i];
  }

  /** Entries with the same types at every position have the same keys. */
  lemma KeysOfSameKey(a: seq<Entry>, b: seq<Entry>)
    requires |a| == |b|
    requires forall i :: 0 <= i < |a| ==> a[i].ctype == b[i].ctype
    ensures Keys(a) == Keys(b)
  {
  }

  /** The types of the non-blank names that resolve, in order. */
  function Resolved(names: seq<string>, resolve: string -> Option<ComponentType>): seq<ComponentType>
  {
    if names == [] then []
    else
      var last := names[|names| - 1];
      Resolved(names[..|names| - 1], resolve)
        + (if !IsBlank(last) && resolve(last).Some? then [resolve(last).value] else [])
  }

  /** `xs` without repetitions, each element where it first occurs. */
  function Distinct<T(==)>(xs: seq<T>): seq<T>
  {
    if xs == [] then []
    else
      var d := Distinct(xs[..|xs| - 1]);
      if xs[|xs| - 1] in d then d else d + [xs[|xs| - 1]]
  }

  /** `Distinct` keeps one copy of each element and the first element first. */
  lemma {:induction false} DistinctProperties<T>(xs: seq<T>)
    ensures forall i, j :: 0 <= i < j < |Distinct(xs)| ==> Distinct(xs)[i] != Distinct(xs)[j]
    ensures forall t :: t in Distinct(xs) <==> t in xs
    ensures xs != [] ==> Distinct(xs) != [] && Distinct(xs)[0] == xs[0]
    decreases |xs|
  {
    if xs != [] {
      var init := xs[..|xs| - 1];
      DistinctProperties(init);
      assert xs == init + [xs[|xs| - 1]];
      if init != [] {
        assert init[0] == xs[0];
      }
    }
  }

  /** The log entries the constructor writes for blank names. */
  function BlankNameLog(names: seq<string>): seq<Effect>
  {
    if names == [] then []
    else
      var last := names[|names| - 1];
      BlankNameLog(names[..|names| - 1]) + (if IsBlank(last) then [LogVerbose(last + " is invalid")] else [])
  }

  /** The result of the constructor and what it logged on the way. */
  datatype Constructed = Constructed(result: Result<Destroyer>, log: seq<Effect>)

  /** The registry and the log lines the constructor's loop produces. */
  datatype Registered = Registered(registry: seq<Entry>, invalid: seq<Effect>)

  /** The registry-building loop of the constructor, one name at a time:
      every non-blank name that resolves registers its type as enabled;
      blank names are logged. */
  function Register(names: seq<string>, resolve: string -> Option<ComponentType>): (r: Registered)
    ensures Keys(r.registry) == Distinct(Resolved(names, resolve))
    ensures forall i :: 0 <= i < |r.registry| ==> r.registry[i].enabled
    ensures r.invalid == BlankNameLog(names)
  {
    if names == [] then Registered([], [])
    else
      var i := |names| - 1;
      var name := names[i];
      var prev := Register(names[..i], resolve);
      BuildStep(names, i, resolve, prev.registry);
      assert names[..i + 1] == names;
      if IsBlank(name) then Registered(prev.registry, prev.invalid + [LogVerbose(name + " is invalid")])
      else if resolve(name).Some? then Registered(Put(prev.registry, resolve(name).value, true), prev.invalid)
      else prev
  }

  /** One more name: how `Resolved`, `Distinct` and the log grow. */
  lemma BuildStep(names: seq<string>, i: nat, resolve: string -> Option<ComponentType>, reg: seq<Entry>)
    requires i < |names|
    requires Keys(reg) == Distinct(Resolved(names[..i], resolve))
    ensures var name := names[i];
            && BlankNameLog(names[..i + 1])
               == BlankNameLog(names[..i]) + (if IsBlank(name) then [LogVerbose(name + " is invalid")] else [])
            && (IsBlank(name) || resolve(name).None? ==>
                  Distinct(Resolved(names[..i + 1], resolve)) == Keys(reg))
            && (!IsBlank(name) && resolve(name).Some? ==>
                  Distinct(Resolved(names[..i + 1], resolve)) == Keys(Put(reg, resolve(name).value, true)))
  {
    var name := names[i];
    assert names[..i + 1][..i] == names[..i];
    var before := Resolved(names[..i], resolve);
    if !IsBlank(name) && resolve(name).Some? {
      var t := resolve(name).value;
      assert Resolved(names[..i + 1], resolve) == before + [t];
      assert (before + [t])[..|before|] == before;
    } else {
      assert Resolved(names[..i + 1], resolve) == before + [];
      assert before + [] == before;
    }
  }

  /** The constructor. `presetDefs` is the name of a `UIDefs` the concrete
      class already supplies (null if none); `titleCase` is
      `StringHelpers.ToTitleCase`. `First` on an empty registry throws. */
  function NewDestroyer(className: string, names: seq<string>,
                        resolve: string -> Option<ComponentType>,
                        presetDefs: Option<string>, titleCase: string -> Option<string>): (r: Constructed)
    ensures r.result.Throws? <==> Resolved(names, resolve) == []
    ensures r.result.Throws? ==> r.result.error == InvalidOperation
    ensures r.result.Ok? ==>
              var d := r.result.value;
              && DistinctKeys(d.registry)
              && (forall i :: 0 <= i < |d.registry| ==> d.registry[i].enabled)
              && (forall t :: t in Keys(d.registry) <==> t in Resolved(names, resolve))
              && |d.registry| > 0
              && d.firstValidType == Resolved(names, resolve)[0] == d.registry[0].ctype
              && d.className == className
              && d.uiDefsName == (if presetDefs.Some? then presetDefs.value
                                  else if titleCase(d.firstValidType.name).Some? then titleCase(d.firstValidType.name).value
                                  else "Invalid Destroyer")
    ensures r.log == BlankNameLog(names)
  {
    var registered := Register(names, resolve);
    DistinctProperties(Resolved(names, resolve));
    if registered.registry == [] then Constructed(Throws(InvalidOperation), registered.invalid)
    else
      var first := registered.registry[0].ctype;
      var defs := match presetDefs
        case Some(n) => n
        case None => match titleCase(first.name) { case Some(s) => s case None => "Invalid Destroyer" };
      Constructed(Ok(Destroyer(className, registered.registry, first, defs)), registered.invalid)
  }

  // ---------------------------------------------------------------------
  // Prepare

  /** `Prepare`: refuse when no type is registered (with an error message)
      or when there is no target (silently); otherwise record an undo. */
  function Prepare(d: Destroyer, target: Option<GameObject>): (r: Pipeline.Prepared)
    ensures r.ok <==> d.registry != [] && target.Some?
    ensures d.registry == [] ==>
              r.effects == [LogError("Can't use " + d.className + " as it doesn't have any valid types.")]
    ensures d.registry != [] && target.None? ==> r.effects == []
    ensures r.ok ==> r.effects == [RegisterObjectUndo(target.value, "Destroy Components " + d.uiDefsName)]
  {
    if d.registry == [] then
      Pipeline.Prepared(false, [LogError("Can't use " + d.className + " as it doesn't have any valid types.")])
    else if target.None? then Pipeline.Prepared(false, [])
    else Pipeline.Prepared(true, [RegisterObjectUndo(target.value, "Destroy Components " + d.uiDefsName)])
  }

  /** A destroyer the constructor returns always has a type, so its
      `Prepare` refuses only a missing target and never reports missing
      types. */
  lemma ConstructedDestroyerPrepares(className: string, names: seq<string>,
                                     resolve: string -> Option<ComponentType>,
                                     presetDefs: Option<string>, titleCase: string -> Option<string>,
                                     target: Option<GameObject>)
    requires NewDestroyer(className, names, resolve, presetDefs, titleCase).result.Ok?
    ensures var d := NewDestroyer(className, names, resolve, presetDefs, titleCase).result.value;
            && (Prepare(d, target).ok <==> target.Some?)
            && (forall m :: LogError(m) !in Prepare(d, target).effects)
  {
  }

  // ---------------------------------------------------------------------
  // Destroying

  /** Destroying `c` in the sweep for type `t` is attempted and succeeds. */
  predicate Doomed(c: Component, t: ComponentType, isA: (ComponentType, ComponentType) -> bool,
                   ignored: GameObject -> bool, destroyError: Component -> Option<string>)
  {
    isA(c.ctype, t) && !ignored(c.owner) && destroyError(c).None?
  }

  /** What a sweep leaves and what it asked the host to do. */
  datatype Swept = Swept(scene: seq<Component>, effects: seq<Effect>)

  /** `ShouldIgnoreObject`'s message. */
  function IgnoreMessage(obj: GameObject): string {
    "Ignoring <b>" + obj.name + "</b> because it's in the ignore list."
  }

  /** What visiting one component in the sweep for `t` does: nothing to a
      component that is not a `t`; a message for one on an ignored object;
      a warning with the exception's message when destroying it throws;
      otherwise its destruction. */
  function Visit(c: Component, t: ComponentType, isA: (ComponentType, ComponentType) -> bool,
                 ignored: GameObject -> bool, destroyError: Component -> Option<string>): (v: seq<Effect>)
    ensures forall x :: DestroyComponent(x) in v <==> x == c && Doomed(c, t, isA, ignored, destroyError)
    ensures |v| <= 1
  {
    if !isA(c.ctype, t) then []
    else if ignored(c.owner) then [Log(IgnoreMessage(c.owner))]
    else if destroyError(c).Some? then [LogWarning(destroyError(c).value)]
    else [DestroyComponent(c)]
  }

  /** The effects of visiting every component, in hierarchy order. */
  function SweepEffects(scene: seq<Component>, t: ComponentType, isA: (ComponentType, ComponentType) -> bool,
                        ignored: GameObject -> bool, destroyError: Component -> Option<string>): (fx: seq<Effect>)
    ensures forall c :: DestroyComponent(c) in fx <==> c in scene && Doomed(c, t, isA, ignored, destroyError)
  {
    if scene == [] then []
    else
      assert scene == [scene[0]] + scene[1..];
      Visit(scene[0], t, isA, ignored, destroyError) + SweepEffects(scene[1..], t, isA, ignored, destroyError)
  }

  /** `DoDestroyByType`: visit every component that is a `t`; skip those on
      ignored objects (with a message); destroy the others, logging and
      going on when a destruction throws. Other components are not touched,
      and the hierarchy keeps exactly the components not destroyed. */
  function DestroyByType(scene: seq<Component>, t: ComponentType, isA: (ComponentType, ComponentType) -> bool,
                         ignored: GameObject -> bool, destroyError: Component -> Option<string>): (r: Swept)
    ensures Subsequence(r.scene, scene)
    ensures forall i :: 0 <= i < |scene| ==>
              (scene[i] in r.scene <==> !Doomed(scene[i], t, isA, ignored, destroyError))
    ensures forall c :: DestroyComponent(c) in r.effects <==> c in scene && Doomed(c, t, isA, ignored, destroyError)
  {
    var kept := Filter(scene, c => !Doomed(c, t, isA, ignored, destroyError));
    Swept(kept, SweepEffects(scene, t, isA, ignored, destroyError))
  }

  /** Removed by some sweep of `DoDestroyComponents`. */
  ghost predicate Destroyed(reg: seq<Entry>, c: Component, isA: (ComponentType, ComponentType) -> bool,
                            ignored: GameObject -> bool, destroyError: Component -> Option<string>)
  {
    Targeted(reg, c.ctype, isA) && !ignored(c.owner) && destroyError(c).None?
  }

  /** After the sweeps of the enabled types of `reg`: the hierarchy keeps
      exactly the components none of them destroyed, in order, and those
      destroyed are exactly the ones the effects destroy. */
  ghost predicate SweptBy(reg: seq<Entry>, scene: seq<Component>, survivors: seq<Component>, effects: seq<Effect>,
                          isA: (ComponentType, ComponentType) -> bool,
                          ignored: GameObject -> bool, destroyError: Component -> Option<string>)
  {
    && Subsequence(survivors, scene)
    && (forall i :: 0 <= i < |scene| ==>
          (scene[i] in survivors <==> !Destroyed(reg, scene[i], isA, ignored, destroyError)))
    && (forall c :: DestroyComponent(c) in effects <==> c in scene && Destroyed(reg, c, isA, ignored, destroyError))
  }

  /** The sweeps of the enabled types of `reg`, one after another, each on
      what the earlier ones left. */
  function Sweeps(reg: seq<Entry>, scene: seq<Component>, isA: (ComponentType, ComponentType) -> bool,
                  ignored: GameObject -> bool, destroyError: Component -> Option<string>): Swept
    decreases |reg|
  {
    if reg == [] then Swept(scene, [])
    else
      var before := Sweeps(reg[..|reg| - 1], scene, isA, ignored, destroyError);
      var last := reg[|reg| - 1];
      if last.enabled then
        var swept := DestroyByType(before.scene, last.ctype, isA, ignored, destroyError);
        Swept(swept.scene, before.effects + swept.effects)
      else before
  }

  /** What the sweeps amount to: the hierarchy keeps exactly the components
      that are not `Destroyed`, in order, and exactly those are destroyed. */
  lemma {:induction false} SweepsMeaning(reg: seq<Entry>, scene: seq<Component>,
                                         isA: (ComponentType, ComponentType) -> bool,
                                         ignored: GameObject -> bool, destroyError: Component -> Option<string>)
    ensures var r := Sweeps(reg, scene, isA, ignored, destroyError);
            SweptBy(reg, scene, r.scene, r.effects, isA, ignored, destroyError)
    decreases |reg|
  {
    if reg == [] {
      SubsequenceReflexive(scene);
    } else {
      var k := |reg| - 1;
      SweepsMeaning(reg[..k], scene, isA, ignored, destroyError);
      TargetedPrefix(reg, k, isA);
      assert reg[..k + 1] == reg;
      var before := Sweeps(reg[..k], scene, isA, ignored, destroyError);
      if reg[k].enabled {
        var swept := DestroyByType(before.scene, reg[k].ctype, isA, ignored, destroyError);
        SubsequenceTransitive(swept.scene, before.scene, scene);
        SubsequenceMembers(swept.scene, before.scene);
        SubsequenceMembers(before.scene, scene);
      }
    }
  }

  /** `DoDestroyComponents`: sweep every enabled type, in registry order. */
  method DoDestroyComponents(d: Destroyer, scene: seq<Component>, isA: (ComponentType, ComponentType) -> bool,
                             ignored: GameObject -> bool, destroyError: Component -> Option<string>)
    returns (ok: bool, survivors: seq<Component>, effects: seq<Effect>)
    ensures ok
    ensures Subsequence(survivors, scene)
    ensures forall i :: 0 <= i < |scene| ==>
              (scene[i] in survivors <==> !Destroyed(d.registry, scene[i], isA, ignored, destroyError))
    ensures forall c :: DestroyComponent(c) in effects <==> c in scene && Destroyed(d.registry, c, isA, ignored, destroyError)
  {
    var reg := d.registry;
    survivors, effects := scene, [];
    var k := 0;
    while k < |reg|
      invariant 0 <= k <= |reg|
      invariant Swept(survivors, effects) == Sweeps(reg[..k], scene, isA, ignored, destroyError)
    {
      assert reg[..k + 1][..k] == reg[..k];
      if reg[k].enabled {
        var swept := DestroyByType(survivors, reg[k].ctype, isA, ignored, destroyError);
        survivors, effects := swept.scene, effects + swept.effects;
      }
      k := k + 1;
    }
    assert reg[..|reg|] == reg;
    SweepsMeaning(reg, scene, isA, ignored, destroyError);
    ok := true;
  }

  /** Growing the registry prefix by one entry adds at most that entry's
      sweep; and `Targeted` means what it says: some enabled entry's type
      is a base of `t`. */
  lemma TargetedPrefix(reg: seq<Entry>, k: nat, isA: (ComponentType, ComponentType) -> bool)
    requires k < |reg|
    ensures forall t :: Targeted(reg[..k + 1], t, isA)
                        <==> Targeted(reg[..k], t, isA) || (reg[k].enabled && isA(t, reg[k].ctype))
  {
    assert reg[..k + 1][..k] == reg[..k];
  }

  /** `Targeted` holds exactly when some enabled entry's type is a base of `t`. */
  lemma {:induction false} TargetedMeaning(reg: seq<Entry>, t: ComponentType, isA: (ComponentType, ComponentType) -> bool)
    ensures Targeted(reg, t, isA) <==> exists i :: 0 <= i < |reg| && reg[i].enabled && isA(t, reg[i].ctype)
    decreases |reg|
  {
    if reg != [] {
      var init := reg[..|reg| - 1];
      TargetedMeaning(init, t, isA);
      assert forall i :: 0 <= i < |init| ==> init[i] == reg[i];
    }
  }

  // ---------------------------------------------------------------------
  // Finish

  /** How an enabled type is named in the message: its name plus "s". */
  function Plural(e: Entry): string {
    e.ctype.name + "s"
  }

  /** What the `StringBuilder` holds after the loop: `"<Name>s, "` for every
      enabled type, in registry order. */
  function AppendedNames(reg: seq<Entry>): (sb: string)
    ensures sb == [] || |sb| >= 3
  {
    if reg == [] then ""
    else (if reg[0].enabled then Plural(reg[0]) + ", " else "") + AppendedNames(reg[1..])
  }

  /** Some registered type is enabled. */
  predicate AnyEnabled(reg: seq<Entry>) {
    exists i :: 0 <= i < |reg| && reg[i].enabled
  }

  /** The plural names of the enabled types, in registry order. */
  function PluralNames(reg: seq<Entry>): (ps: seq<string>)
    ensures |ps| == 0 <==> !AnyEnabled(reg)
  {
    if reg == [] then []
    else
      var rest := PluralNames(reg[1..]);
      assert forall i :: 1 <= i < |reg| ==> reg[i] == reg[1..][i - 1];
      (if reg[0].enabled then [Plural(reg[0])] else []) + rest
  }

  /** `parts` separated by `sep`. */
  function Join(parts: seq<string>, sep: string): string
  {
    if parts == [] then ""
    else if |parts| == 1 then parts[0]
    else parts[0] + sep + Join(parts[1..], sep)
  }

  lemma AnyEnabledCons(reg: seq<Entry>)
    requires reg != []
    ensures AnyEnabled(reg) <==> reg[0].enabled || AnyEnabled(reg[1..])
  {
    if AnyEnabled(reg) && !reg[0].enabled {
      var i :| 0 <= i < |reg| && reg[i].enabled;
      assert reg[1..][i - 1] == reg[i];
    }
    if AnyEnabled(reg[1..]) {
      var i :| 0 <= i < |reg[1..]| && reg[1..][i].enabled;
      assert reg[i + 1] == reg[1..][i];
    }
  }

  /** Joining in front of a non-empty list puts one separator after the head. */
  lemma JoinCons(p: string, ps: seq<string>, sep: string)
    ensures Join([p] + ps, sep) == if ps == [] then p else p + sep + Join(ps, sep)
  {
    assert ([p] + ps)[1..] == ps;
  }

  /** The builder holds the joined plural names plus one trailing ", ". */
  lemma {:induction false} AppendedNamesJoin(reg: seq<Entry>)
    ensures AppendedNames(reg) == (if AnyEnabled(reg) then Join(PluralNames(reg), ", ") + ", " else "")
    decreases |reg|
  {
    if reg != [] {
      var rest := reg[1..];
      AppendedNamesJoin(rest);
      AnyEnabledCons(reg);
      var ps := PluralNames(rest);
      if reg[0].enabled {
        var p := Plural(reg[0]);
        assert PluralNames(reg) == [p] + ps;
        JoinCons(p, ps, ", ");
        if AnyEnabled(rest) {
          var j := Join(ps, ", ");
          calc {
            AppendedNames(reg);
            (p + ", ") + (j + ", ");
            { assert (p + ", ") + (j + ", ") == (p + ", " + j) + ", "; }
            Join([p] + ps, ", ") + ", ";
          }
        }
      } else {
        assert PluralNames(reg) == ps;
      }
    }
  }

  /** A non-empty builder starts with a name followed by "s". */
  lemma {:induction false} AppendedNamesHasS(reg: seq<Entry>)
    requires AnyEnabled(reg)
    ensures exists k :: 0 <= k < |AppendedNames(reg)| - 2 && AppendedNames(reg)[k] == 's'
    decreases |reg|
  {
    AnyEnabledCons(reg);
    if reg[0].enabled {
      var k := |reg[0].ctype.name|;
      assert Plural(reg[0])[k] == 's';
      assert AppendedNames(reg)[k] == 's';
    } else {
      AppendedNamesHasS(reg[1..]);
      assert AppendedNames(reg) == AppendedNames(reg[1..]);
    }
  }

  /** The names in the completion message as the code computes them: the
      builder minus its last character (so a trailing "," stays), or the
      `UIDefs` name when that is blank. */
  function FinishNamesAsWritten(reg: seq<Entry>, fallback: string): string
  {
    var sb := AppendedNames(reg);
    var names := if |sb| > 0 then sb[..|sb| - 1] else sb;
    if IsBlank(names) then fallback else names
  }

  /** The names in the completion message as evidently intended: the
      builder minus its trailing ", ", or the `UIDefs` name when no type is
      enabled. */
  function FinishNames(reg: seq<Entry>, fallback: string): string
  {
    var sb := AppendedNames(reg);
    var names := if |sb| > 0 then sb[..|sb| - 2] else sb;
    if IsBlank(names) then fallback else names
  }

  /** The intended names are exactly the enabled types' plural names joined
      by ", ", and the fallback is used exactly when no type is enabled. */
  lemma FinishNamesJoin(reg: seq<Entry>, fallback: string)
    ensures FinishNames(reg, fallback)
            == (if AnyEnabled(reg) then Join(PluralNames(reg), ", ") else fallback)
  {
    AppendedNamesJoin(reg);
    if AnyEnabled(reg) {
      var sb := AppendedNames(reg);
      var joined := Join(PluralNames(reg), ", ");
      assert sb[..|sb| - 2] == joined;
      AppendedNamesHasS(reg);
      var k :| 0 <= k < |sb| - 2 && sb[k] == 's';
      assert sb[..|sb| - 2][k] == 's';
    }
  }

  /** As written, the names carry one trailing comma whenever a type is
      enabled; otherwise both versions fall back to the `UIDefs` name. */
  lemma {:induction false} FinishNamesAsWrittenTrailingComma(reg: seq<Entry>, fallback: string)
    ensures AnyEnabled(reg) ==> FinishNamesAsWritten(reg, fallback) == FinishNames(reg, fallback) + ","
    ensures !AnyEnabled(reg) ==> FinishNamesAsWritten(reg, fallback) == FinishNames(reg, fallback) == fallback
  {
    AppendedNamesJoin(reg);
    if AnyEnabled(reg) {
      FinishNamesJoin(reg, fallback);
      var joined := Join(PluralNames(reg), ", ");
      var sb := AppendedNames(reg);
      assert sb[..|sb| - 1] == joined + ",";
      assert (joined + ",")[|joined|] == ',';
    }
  }

  /** The input that shows it: a destroyer for one type, `DynamicBone`. */
  lemma FinishNamesAsWrittenExample()
    ensures var reg := [Entry(ComponentType("DynamicBone", "DynamicBone"), true)];
            && FinishNamesAsWritten(reg, "Dynamic Bone") == "DynamicBones,"
            && FinishNames(reg, "Dynamic Bone") == "DynamicBones"
  {
    var reg := [Entry(ComponentType("DynamicBone", "DynamicBone"), true)];
    assert reg[1..] == [];
    assert Plural(reg[0]) == "DynamicBones";
    assert AppendedNames(reg) == "DynamicBones, ";
    assert "DynamicBones,"[0] == 'D' && !IsWhiteSpace('D');
    assert "DynamicBones"[0] == 'D';
  }

  /** The completion message for `names` and the target's name. */
  function FinishMessage(names: string, targetName: string): string {
    "Successfully removed all <b>" + names + "</b> from <b>" + targetName + "</b>"
  }

  /** `Finish` as the code writes it: the enabled types' names joined by
      ", " and followed by a stray ",", or the `UIDefs` name when no type
      is enabled. */
  function Finish(d: Destroyer, target: GameObject): (e: Effect)
    ensures e.Log?
    ensures AnyEnabled(d.registry) ==>
              e.message == FinishMessage(Join(PluralNames(d.registry), ", ") + ",", target.name)
    ensures !AnyEnabled(d.registry) ==> e.message == FinishMessage(d.uiDefsName, target.name)
  {
    FinishNamesJoin(d.registry, d.uiDefsName);
    FinishNamesAsWrittenTrailingComma(d.registry, d.uiDefsName);
    Log(FinishMessage(FinishNamesAsWritten(d.registry, d.uiDefsName), target.name))
  }

  /** `Finish` as evidently intended: the enabled types' names joined by
      ", " with nothing after them. */
  function FinishIntended(d: Destroyer, target: GameObject): (e: Effect)
    ensures e.Log?
    ensures AnyEnabled(d.registry) ==> e.message == FinishMessage(Join(PluralNames(d.registry), ", "), target.name)
    ensures !AnyEnabled(d.registry) ==> e.message == FinishMessage(d.uiDefsName, target.name)
  {
    FinishNamesJoin(d.registry, d.uiDefsName);
    Log(FinishMessage(FinishNames(d.registry, d.uiDefsName), target.name))
  }

  /** The message as written and the intended one differ exactly when some
      type is enabled, and then by the one stray character. */
  lemma FinishAgainstIntended(d: Destroyer, target: GameObject)
    ensures Finish(d, target) == FinishIntended(d, target) <==> !AnyEnabled(d.registry)
    ensures AnyEnabled(d.registry) ==>
              |Finish(d, target).message| == |FinishIntended(d, target).message| + 1
  {
  }

  // ---------------------------------------------------------------------
  // The pipeline

  /** `TryDestroyComponents` with the base stages: `Prepare`, then the
      sweeps, then `Finish`. None of the base stages throws here (host
      exceptions are outside the model), so the outcome is decided by
      `Prepare`; a refused run leaves the hierarchy alone. */
  method TryDestroyComponents(d: Destroyer, target: Option<GameObject>, scene: seq<Component>,
                              isA: (ComponentType, ComponentType) -> bool,
                              ignored: GameObject -> bool, destroyError: Component -> Option<string>)
    returns (ok: bool, survivors: seq<Component>, effects: seq<Effect>)
    ensures ok <==> d.registry != [] && target.Some?
    ensures !ok ==> survivors == scene && effects == Prepare(d, target).effects
    ensures ok ==> && |effects| >= 2
                   && Subsequence(survivors, scene)
                   && (forall i :: 0 <= i < |scene| ==>
                         (scene[i] in survivors <==> !Destroyed(d.registry, scene[i], isA, ignored, destroyError)))
                   && (forall c :: DestroyComponent(c) in effects <==>
                                     c in scene && Destroyed(d.registry, c, isA, ignored, destroyError))
                   && effects[0] == RegisterObjectUndo(target.value, "Destroy Components " + d.uiDefsName)
                   && effects[|effects| - 1] == Finish(d, target.value)
  {
    var prepared := Prepare(d, target);
    ok, survivors, effects := false, scene, prepared.effects;
    if prepared.ok {
      var acted, fx;
      acted, survivors, fx := DoDestroyComponents(d, scene, isA, ignored, destroyError);
      effects := effects + fx;
      if acted {
        effects := effects + [Finish(d, target.value)];
        ok := true;
      }
    }
  }
}

=== FILE: host.dfy ===
/**
 The host editor as the tools see it: nullable references, exceptions, the
 scene objects the tools touch, and the side effects (console logging, undo
 recording, update subscriptions, component destruction) they ask the host
 to perform. Side effects are recorded as a trace of `Effect` values.
 */
module Host {

  /** A C# reference that may be null. */
  datatype Option<+T> = None | Some(value: T)

  /** The implicit `bool` conversion of a reference: true iff it is not null. */
  predicate Truthy<T>(o: Option<T>) {
    o.Some?
  }

  /** No entry of the list is a null reference. */
  predicate NoNulls<T>(xs: seq<Option<T>>) {
    forall i :: 0 <= i < |xs| ==> xs[i].Some?
  }

  /** The exceptions the modelled code can raise. */
  datatype Exception =
    | NullReference       // a lambda dereferenced a null list entry
    | InvalidOperation    // `Enumerable.First` on an empty sequence

  /** The result of a call that either returns a value or throws. */
  datatype Result<+T> = Ok(value: T) | Throws(error: Exception)

  /** A scene object. `handle` is its identity (reference equality);
      `sceneName` is None for an object that is not in a loaded scene. */
  datatype GameObject = GameObject(handle: nat, name: string, sceneName: Option<string>)

  /** A component type; `fullName` is what the type is looked up by and
      `name` is the short name shown to the user. */
  datatype ComponentType = ComponentType(fullName: string, name: string)

  /** A component attached to a scene object. */
  datatype Component = Component(handle: nat, owner: GameObject, ctype: ComponentType)

  /** The contents of a `UIDefinitionAttribute`. */
  datatype UIDefinition = UIDefinition(friendlyName: string, description: string, orderInUI: int)

  /** A `GUIContent` label: text plus tooltip. */
  datatype Label = Label(text: string, tooltip: string)

  /** What the host is asked to do, in order. */
  datatype Effect =
    | Log(message: string)
    | LogVerbose(message: string)
    | LogWarning(message: string)
    | LogError(message: string)
    | LogException(error: Exception)
    | RegisterHierarchyUndo(target: GameObject, undoName: string)
    | RegisterObjectUndo(target: GameObject, undoName: string)
    | RecordPrefabModifications(target: GameObject)
    | SubscribeUpdate
    | UnsubscribeUpdate
    | DestroyComponent(component: Component)

  /** The result of a lazy getter: the value handed out and the new cache. */
  datatype Cached<T> = Cached(value: T, cache: Option<T>)

  /** The `cache ?? (cache = new T(...))` idiom: hand out the cached object, or
      store and hand out the freshly constructed one when the cache is null. */
  function GetOrCreate<T>(cache: Option<T>, created: T): (r: Cached<T>)
    ensures r.cache == Some(r.value)
    ensures cache.Some? ==> r.value == cache.value
    ensures cache.None? ==> r.value == created
  {
    match cache
    case Some(v) => Cached(v, cache)
    case None => Cached(created, Some(created))
  }

  /** A second read of a lazily created value returns the same object and
      changes nothing, whatever object would have been constructed. */
  lemma GetOrCreateIsStable<T>(cache: Option<T>, created: T, created': T)
    ensures var first := GetOrCreate(cache, created);
            GetOrCreate(first.cache, created') == first
  {
  }

  /** `char.IsWhiteSpace`: the Unicode space separators, the line and
      paragraph separators, and U+0009..U+000D, U+0085, U+00A0. */
  predicate IsWhiteSpace(c: char) {
    || ('\U{0009}' <= c <= '\U{000D}') || c == '\U{0020}' || c == '\U{0085}'
    || c == '\U{00A0}' || c == '\U{1680}' || ('\U{2000}' <= c <= '\U{200A}')
    || c == '\U{2028}' || c == '\U{2029}' || c == '\U{202F}' || c == '\U{205F}'
    || c == '\U{3000}'
  }

  /** `string.IsNullOrWhiteSpace` for a non-null string (a null string is
      modelled as the empty one, which behaves the same). */
  predicate IsBlank(s: string) {
    forall i :: 0 <= i < |s| ==> IsWhiteSpace(s[i])
  }
}

=== FILE: main_ui.dfy ===
/**
 `MainUI`: the tools window's registry of modules. Entries are module
 references and may be null (the list can be handed in by the caller);
 `AddModule` is the only operation that adds and it never adds null.
 Modules are compared by reference (`handle`) and by name ignoring case.
 */
module MainUI {
  import opened Host
  import opened Seqs
  import opened StableSort
  import opened CaseFold
  import opened UIModules

  /** The window: its module list and the backing field of `OrphanHolder`. */
  datatype UI = UI(modules: seq<Option<Module>>, orphanHolder: Option<Module>)

  /** `new MainUI()` and `new MainUI(modules)`. */
  function NewUI(modules: seq<Option<Module>>): (ui: UI)
    ensures ui.modules == modules && ui.orphanHolder == None
  {
    UI(modules, None)
  }

  /** Reference equality on possibly-null module references. */
  predicate SameRef(a: Option<Module>, b: Option<Module>) {
    (a.None? && b.None?) || (a.Some? && b.Some? && a.value.handle == b.value.handle)
  }

  /** The module is called `name`, ignoring case. */
  predicate Named(m: Module, name: string) {
    EqualsIgnoreCase(name, m.name)
  }

  /** The first `n` entries are non-null modules not called `name`: a search
      for `name` gets past them without a hit and without throwing. */
  ghost predicate PassedBy(xs: seq<Option<Module>>, name: string, n: int) {
    forall j :: 0 <= j < n && j < |xs| ==> xs[j].Some? && !Named(xs[j].value, name)
  }

  /** `AddModule`: append a non-null module; ignore null. */
  function AddModule(ui: UI, m: Option<Module>): (r: UI)
    ensures m.None? ==> r == ui
    ensures m.Some? ==> && |r.modules| == |ui.modules| + 1
                        && r.modules[..|ui.modules|] == ui.modules
                        && r.modules[|ui.modules|] == m
    ensures r.orphanHolder == ui.orphanHolder
  {
    if m.Some? then ui.(modules := ui.modules + [m]) else ui
  }

  /** `FirstOrDefault` with the name test over the raw list: the first
      module called `name`, or null when there is none; a null entry
      reached before a hit makes the test dereference null and throw. */
  function Find(xs: seq<Option<Module>>, name: string): (r: Result<Option<Module>>)
    ensures r == Ok(None) <==> PassedBy(xs, name, |xs|)
    ensures r.Ok? && r.value.Some? ==>
              exists i :: 0 <= i < |xs| && xs[i] == r.value && Named(r.value.value, name)
                          && PassedBy(xs, name, i)
    ensures r.Throws? ==>
              r.error == NullReference
              && exists i :: 0 <= i < |xs| && xs[i].None? && PassedBy(xs, name, i)
  {
    if xs == [] then Ok(None)
    else if xs[0].None? then Throws(NullReference)
    else if Named(xs[0].value, name) then Ok(xs[0])
    else
      var r := Find(xs[1..], name);
      assert forall j :: 1 <= j < |xs| ==> xs[j] == xs[1..][j - 1];
      r
  }

  /** `FindModule`: `Find` on the window's module list. */
  function FindModule(ui: UI, name: string): Result<Option<Module>>
  {
    Find(ui.modules, name)
  }

  /** The result of `List.Remove`: the new list and whether anything went. */
  datatype Removal = Removal(modules: seq<Option<Module>>, removed: bool)

  /** `List.IndexOf` by reference: the first position of `m`, or `|xs|`. */
  function IndexOfRef(xs: seq<Option<Module>>, m: Option<Module>): (i: nat)
    ensures i <= |xs|
    ensures forall j :: 0 <= j < i ==> !SameRef(xs[j], m)
    ensures i < |xs| ==> SameRef(xs[i], m)
  {
    if xs == [] then 0
    else if SameRef(xs[0], m) then 0
    else
      var i := IndexOfRef(xs[1..], m);
      assert forall j :: 1 <= j < |xs| ==> xs[j] == xs[1..][j - 1];
      i + 1
  }

  /** `List.Remove`: drop the first entry that is the same reference. */
  function RemoveFirst(xs: seq<Option<Module>>, m: Option<Module>): (r: Removal)
    ensures r.removed <==> exists i :: 0 <= i < |xs| && SameRef(xs[i], m)
    ensures !r.removed ==> r.modules == xs
    ensures r.removed ==>
              exists i :: && 0 <= i < |xs| && SameRef(xs[i], m)
                          && (forall j :: 0 <= j < i ==> !SameRef(xs[j], m))
                          && r.modules == xs[..i] + xs[i + 1..]
  {
    var i := IndexOfRef(xs, m);
    if i == |xs| then Removal(xs, false) else Removal(xs[..i] + xs[i + 1..], true)
  }

  /** `RemoveModule(IUIModule)`: true iff the module was in the list. */
  function RemoveModule(ui: UI, m: Option<Module>): (r: (UI, bool))
    ensures r.1 <==> exists i :: 0 <= i < |ui.modules| && SameRef(ui.modules[i], m)
    ensures !r.1 ==> r.0 == ui
    ensures r.0.orphanHolder == ui.orphanHolder
    ensures |r.0.modules| == |ui.modules| - (if r.1 then 1 else 0)
    ensures r.1 ==>
              exists i :: && 0 <= i < |ui.modules| && SameRef(ui.modules[i], m)
                          && (forall j :: 0 <= j < i ==> !SameRef(ui.modules[j], m))
                          && r.0.modules == ui.modules[..i] + ui.modules[i + 1..]
  {
    var removal := RemoveFirst(ui.modules, m);
    (ui.(modules := removal.modules), removal.removed)
  }

  /** The number of entries that are modules called `name`. */
  function CountNamed(xs: seq<Option<Module>>, name: string): nat
  {
    if xs == [] then 0
    else (if xs[0].Some? && Named(xs[0].value, name) then 1 else 0) + CountNamed(xs[1..], name)
  }

  /** The entry survives `RemoveAll` with the name test. */
  predicate Survives(o: Option<Module>, name: string) {
    !(o.Some? && Named(o.value, name))
  }

  /** The result of `RemoveModule(string)`: the new list and the count. */
  datatype Pruned = Pruned(modules: seq<Option<Module>>, count: nat)

  lemma CountNamedComplement(xs: seq<Option<Module>>, name: string)
    ensures CountNamed(xs, name) + Count(xs, o => Survives(o, name)) == |xs|
  {
    if xs != [] {
      CountNamedComplement(xs[1..], name);
    }
  }

  /** `List.RemoveAll` with the name test, which dereferences every entry:
      a null entry throws (the partly compacted list it leaves is not
      modelled); otherwise every module called `name` goes, the others stay
      in order, and the count of removed entries is returned. */
  function RemoveNamed(xs: seq<Option<Module>>, name: string): (r: Result<Pruned>)
    ensures r.Throws? <==> !NoNulls(xs)
    ensures r.Throws? ==> r.error == NullReference
    ensures r.Ok? ==> PassedBy(r.value.modules, name, |r.value.modules|)
    ensures r.Ok? ==> Subsequence(r.value.modules, xs)
    ensures r.Ok? ==> forall i :: 0 <= i < |xs| && !Named(xs[i].value, name) ==> xs[i] in r.value.modules
    ensures r.Ok? ==> r.value.count == CountNamed(xs, name) == |xs| - |r.value.modules|
  {
    if !NoNulls(xs) then Throws(NullReference)
    else
      var kept := Filter(xs, o => Survives(o, name));
      CountNamedComplement(xs, name);
      assert forall i :: 0 <= i < |kept| ==> kept[i] in xs;
      Ok(Pruned(kept, |xs| - |kept|))
  }

  /** `RemoveModule(string)`. */
  function RemoveModulesNamed(ui: UI, name: string): (r: Result<(UI, nat)>)
    ensures r.Throws? <==> !NoNulls(ui.modules)
    ensures r.Throws? ==> r.error == NullReference
    ensures r.Ok? ==> && r.value.0 == ui.(modules := r.value.0.modules)
                      && PassedBy(r.value.0.modules, name, |r.value.0.modules|)
                      && Subsequence(r.value.0.modules, ui.modules)
                      && (forall i :: 0 <= i < |ui.modules| && !Named(ui.modules[i].value, name) ==>
                            ui.modules[i] in r.value.0.modules)
                      && r.value.1 == CountNamed(ui.modules, name) == |ui.modules| - |r.value.0.modules|
  {
    match RemoveNamed(ui.modules, name)
    case Throws(e) => Throws(e)
    case Ok(p) => Ok((ui.(modules := p.modules), p.count))
  }

  /** The sort key of a module entry (entries are known non-null when it is
      used). */
  function ModuleOrder(o: Option<Module>): int {
    if o.Some? then o.value.orderInUI else 0
  }

  /** `OrderModules`: replace the list by its stable sort on `OrderInUI`; a
      null entry throws and the list stays as it was. */
  function OrderModules(ui: UI): (r: Result<UI>)
    ensures r.Throws? <==> !NoNulls(ui.modules)
    ensures r.Throws? ==> r.error == NullReference
    ensures r.Ok? ==> && r.value.orphanHolder == ui.orphanHolder
                      && multiset(r.value.modules) == multiset(ui.modules)
                      && SortedBy(r.value.modules, ModuleOrder)
                      && SameKeyClasses(r.value.modules, ui.modules, ModuleOrder)
  {
    match OrderBy(ui.modules, ModuleOrder)
    case Throws(e) => Throws(e)
    case Ok(sorted) => Ok(ui.(modules := sorted))
  }

  /** The `OrphanHolder` getter together with the window after the read. */
  datatype OrphanRead = OrphanRead(ui: UI, holder: Module)

  /** The `OrphanHolder` getter. `created` is the `OrphanHolderModule` the
      getter constructs when its backing field is null. */
  function GetOrphanHolder(ui: UI, created: Module): (r: OrphanRead)
    ensures r.ui.modules == ui.modules
    ensures r.ui.orphanHolder == Some(r.holder)
    ensures ui.orphanHolder.Some? ==> r == OrphanRead(ui, ui.orphanHolder.value)
    ensures ui.orphanHolder.None? ==> r.holder == created
  {
    var c := GetOrCreate(ui.orphanHolder, created);
    OrphanRead(ui.(orphanHolder := c.cache), c.value)
  }

  /** The orphan holder exists after the first read, later reads return that
      same instance, and none of them touches the module list; a holder
      created afresh is not one of the listed modules. */
  lemma OrphanHolderIsStable(ui: UI, created: Module, created': Module)
    ensures var first := GetOrphanHolder(ui, created);
            && Truthy(first.ui.orphanHolder)
            && GetOrphanHolder(first.ui, created') == first
            && first.ui.modules == ui.modules
    ensures ui.orphanHolder.None? && (forall i :: 0 <= i < |ui.modules| ==> !SameRef(ui.modules[i], Some(created)))
            ==> Some(GetOrphanHolder(ui, created).holder) !in ui.modules
  {
    GetOrCreateIsStable(ui.orphanHolder, created, created');
    if forall i :: 0 <= i < |ui.modules| ==> !SameRef(ui.modules[i], Some(created)) {
      forall i | 0 <= i < |ui.modules|
        ensures ui.modules[i] != Some(created)
      {
        assert !SameRef(ui.modules[i], Some(created));
      }
    }
  }

  /** Adding a module that is not yet listed and removing it again restores
      the list, and reports the removal. */
  lemma {:induction false} AddThenRemoveModule(ui: UI, m: Module)
    requires forall i :: 0 <= i < |ui.modules| ==> !SameRef(ui.modules[i], Some(m))
    ensures RemoveModule(AddModule(ui, Some(m)), Some(m)) == (ui, true)
  {
    var xs := ui.modules + [Some(m)];
    var r := RemoveFirst(xs, Some(m));
    assert SameRef(xs[|ui.modules|], Some(m));
    var i :| && 0 <= i < |xs| && SameRef(xs[i], Some(m))
             && (forall j :: 0 <= j < i ==> !SameRef(xs[j], Some(m)))
             && r.modules == xs[..i] + xs[i + 1..];
    assert i == |ui.modules|;
    assert r.modules == ui.modules;
  }

  /** A search that gets past the first `n` entries finds a module called
      `name` at position `n`. */
  lemma {:induction false} FindAfterPassed(xs: seq<Option<Module>>, name: string, n: nat)
    requires n < |xs| && PassedBy(xs, name, n)
    requires xs[n].Some? && Named(xs[n].value, name)
    ensures Find(xs, name) == Ok(xs[n])
    decreases n
  {
    if n > 0 {
      assert forall j :: 1 <= j < |xs| ==> xs[j] == xs[1..][j - 1];
      FindAfterPassed(xs[1..], name, n - 1);
    }
  }

  /** A module added under a name no listed module has is what a search for
      that name (in any case) finds. */
  lemma AddThenFindModule(ui: UI, m: Module, name: string)
    requires PassedBy(ui.modules, name, |ui.modules|)
    requires Named(m, name)
    ensures FindModule(AddModule(ui, Some(m)), name) == Ok(Some(m))
  {
    FindAfterPassed(AddModule(ui, Some(m)).modules, name, |ui.modules|);
  }

  /** After removing every module called `name`, a search for it finds
      nothing and does not throw. */
  lemma RemoveNamedThenFind(ui: UI, name: string)
    requires RemoveModulesNamed(ui, name).Ok?
    ensures FindModule(RemoveModulesNamed(ui, name).value.0, name) == Ok(None)
  {
  }

  /** Ordering twice is ordering once. */
  lemma {:induction false} OrderModulesIdempotent(ui: UI)
    requires OrderModules(ui).Ok?
    ensures OrderModules(OrderModules(ui).value) == OrderModules(ui)
  {
    var once := OrderModules(ui).value;
    var sorted := once.modules;
    assert |multiset(sorted)| == |multiset(ui.modules)|;
    forall i | 0 <= i < |sorted|
      ensures sorted[i].Some?
    {
      assert sorted[i] in multiset(ui.modules);
    }
    var twice := OrderModules(once);
    StableSortUnique(twice.value.modules, sorted, ModuleOrder);
  }
}

=== FILE: pipeline.dfy ===
/** The Prepare -> act -> Finish pipeline of a sub-tool's `TryExecute`: run
    the stages inside one try block, stop at the first stage that answers
    false, and turn an exception from any stage into a logged failure. The
    stages are virtual, so each is given by what it did: returned a value or
    threw. Component destroyers wrap the same three steps in a try block too,
    but their base stages throw nothing in this model, so
    `ComponentDestroyers.TryDestroyComponents` leaves the catch out; they
    share only `Prepared`. */
module Pipeline {
  import opened Host

  datatype Outcome<T> = Returns(value: T) | Raises(error: Exception)

  datatype Stage = PrepareStage | ActStage | FinishStage

  /** What a `Prepare` stage answered, and what it did to the host on the way. */
  datatype Prepared = Prepared(ok: bool, effects: seq<Effect>)

  /** Which stages ran, in order, what the pipeline answered, and which
      exception (if any) it caught and logged. */
  datatype Run = Run(ok: bool, stages: seq<Stage>, caught: Option<Exception>)

  /** All stages, in the order the pipeline calls them. */
  const AllStages: seq<Stage> := [PrepareStage, ActStage, FinishStage]

  function Raised<T>(o: Outcome<T>): Option<Exception> {
    if o.Raises? then Some(o.error) else None
  }

  function TryRun(prepare: Outcome<bool>, act: Outcome<bool>, finish: Outcome<()>): (r: Run)
    ensures r.ok <==> prepare == Returns(true) && act == Returns(true) && finish.Returns?
    ensures 1 <= |r.stages| <= 3 && r.stages == AllStages[..|r.stages|]
    ensures ActStage in r.stages <==> prepare == Returns(true)
    ensures FinishStage in r.stages <==> prepare == Returns(true) && act == Returns(true)
    ensures r.caught == [Raised(prepare), Raised(act), Raised(finish)][|r.stages| - 1]
    ensures r.ok ==> r.caught == None
  {
    match prepare
    case Raises(e) => Run(false, [PrepareStage], Some(e))
    case Returns(false) => Run(false, [PrepareStage], None)
    case Returns(true) =>
      match act
      case Raises(e) => Run(false, [PrepareStage, ActStage], Some(e))
      case Returns(false) => Run(false, [PrepareStage, ActStage], None)
      case Returns(true) =>
        match finish
        case Raises(e) => Run(false, AllStages, Some(e))
        case Returns(_) => Run(true, AllStages, None)
  }
}

=== FILE: seqs.dfy ===
/** Order-preserving filtering of sequences, as `List.RemoveAll` and
    enumeration with a `continue` do it. */
module Seqs {

  /** `a` is `b` with some elements left out, the rest in their original order. */
  ghost predicate Subsequence<T>(a: seq<T>, b: seq<T>)
    decreases |b|
  {
    if a == [] then true
    else if b == [] then false
    else if a[0] == b[0] then Subsequence(a[1..], b[1..])
    else Subsequence(a, b[1..])
  }

  /** The number of elements of `xs` that satisfy `p`. */
  function Count<T>(xs: seq<T>, p: T -> bool): nat
  {
    if xs == [] then 0 else (if p(xs[0]) then 1 else 0) + Count(xs[1..], p)
  }

  /** The elements of `xs` that satisfy `p`, in order. */
  function Filter<T>(xs: seq<T>, p: T -> bool): (r: seq<T>)
    ensures |r| == Count(xs, p)
    ensures forall i :: 0 <= i < |r| ==> p(r[i]) && r[i] in xs
    ensures forall i :: 0 <= i < |xs| && p(xs[i]) ==> xs[i] in r
    ensures Subsequence(r, xs)
  {
    if xs == [] then []
    else if p(xs[0]) then [xs[0]] + Filter(xs[1..], p)
    else Filter(xs[1..], p)
  }

  /** Leaving out the first element of a subsequence keeps it one. */
  lemma {:induction false} SubsequenceDropFirst<T>(a: seq<T>, b: seq<T>)
    requires a != [] && Subsequence(a, b)
    ensures Subsequence(a[1..], b)
    decreases |b|, 0
  {
    assert b == [b[0]] + b[1..];
    if a[0] == b[0] {
      SubsequenceSkip(a[1..], b[1..], b[0]);
    } else {
      SubsequenceDropFirst(a, b[1..]);
      SubsequenceSkip(a[1..], b[1..], b[0]);
    }
  }

  /** A subsequence of `b` is a subsequence of `[x] + b`. */
  lemma {:induction false} SubsequenceSkip<T>(a: seq<T>, b: seq<T>, x: T)
    requires Subsequence(a, b)
    ensures Subsequence(a, [x] + b)
    decreases |b|, 1
  {
    assert ([x] + b)[1..] == b;
    if a != [] && a[0] == x {
      SubsequenceDropFirst(a, b);
    }
  }

  /** Leaving out elements twice is leaving out elements once. */
  lemma {:induction false} SubsequenceTransitive<T>(a: seq<T>, b: seq<T>, c: seq<T>)
    requires Subsequence(a, b) && Subsequence(b, c)
    ensures Subsequence(a, c)
    decreases |c|
  {
    if a == [] {
    } else if b == [] {
    } else if c == [] {
    } else if b[0] == c[0] {
      if a[0] == b[0] {
        SubsequenceTransitive(a[1..], b[1..], c[1..]);
      } else {
        SubsequenceTransitive(a, b[1..], c[1..]);
      }
    } else {
      SubsequenceTransitive(a, b, c[1..]);
      if a[0] == c[0] {
        SubsequenceDropFirst(a, c[1..]);
      }
    }
  }

  /** Every sequence is a subsequence of itself. */
  lemma {:induction false} SubsequenceReflexive<T>(a: seq<T>)
    ensures Subsequence(a, a)
    decreases |a|
  {
    if a != [] {
      SubsequenceReflexive(a[1..]);
    }
  }

  /** The same first element may be added to both sides. */
  lemma SubsequenceCons<T>(a: seq<T>, b: seq<T>, x: T)
    requires Subsequence(a, b)
    ensures Subsequence([x] + a, [x] + b)
  {
    assert ([x] + a)[1..] == a && ([x] + b)[1..] == b;
  }

  /** Every element of a subsequence is an element of the sequence. */
  lemma {:induction false} SubsequenceMembers<T>(a: seq<T>, b: seq<T>)
    requires Subsequence(a, b)
    ensures forall i :: 0 <= i < |a| ==> a[i] in b
    decreases |b|
  {
    if a != [] {
      if a[0] == b[0] {
        SubsequenceMembers(a[1..], b[1..]);
        assert forall i :: 1 <= i < |a| ==> a[i] == a[1..][i - 1];
      } else {
        SubsequenceMembers(a, b[1..]);
      }
    }
  }
}

=== FILE: stable_sort.dfy ===
/**
 `Enumerable.OrderBy(key).ToList()`: a stable sort by an integer key. The
 sort is written as an insertion sort; its meaning is stated independently:
 the result is ordered by key and, for every key, lists the elements with
 that key in the order the input lists them. Those two facts pin the result
 down uniquely (`SortByCharacterization`).
 */
module StableSort {
  import opened Host

  /** Keys never decrease along `xs`. */
  ghost predicate SortedBy<T>(xs: seq<T>, key: T -> int) {
    forall i, j :: 0 <= i < j < |xs| ==> key(xs[i]) <= key(xs[j])
  }

  /** The elements of `xs` whose key is `k`, in order. */
  function WithKey<T>(xs: seq<T>, key: T -> int, k: int): seq<T>
  {
    if xs == [] then []
    else (if key(xs[0]) == k then [xs[0]] else []) + WithKey(xs[1..], key, k)
  }

  /** `r` lists, key by key, exactly the elements of `xs` in their input order. */
  ghost predicate SameKeyClasses<T>(r: seq<T>, xs: seq<T>, key: T -> int) {
    forall k :: WithKey(r, key, k) == WithKey(xs, key, k)
  }

  /** Places `x` in front of the first element whose key is not smaller. */
  function Insert<T>(x: T, s: seq<T>, key: T -> int): (r: seq<T>)
    ensures |r| == |s| + 1
    ensures multiset(r) == multiset(s) + multiset{x}
  {
    if s == [] || key(x) <= key(s[0]) then [x] + s
    else
      assert s == [s[0]] + s[1..];
      [s[0]] + Insert(x, s[1..], key)
  }

  /** Every key in `s` is at least `b`. */
  ghost predicate KeysAtLeast<T>(s: seq<T>, key: T -> int, b: int) {
    forall i :: 0 <= i < |s| ==> b <= key(s[i])
  }

  /** A sorted sequence: its tail is sorted and bounded below by its head. */
  lemma SortedSplit<T>(s: seq<T>, key: T -> int)
    requires s != [] && SortedBy(s, key)
    ensures SortedBy(s[1..], key) && KeysAtLeast(s[1..], key, key(s[0]))
  {
    forall i | 0 <= i < |s[1..]|
      ensures key(s[0]) <= key(s[1..][i])
    {
      assert s[1..][i] == s[i + 1];
    }
    SortedTail(s, key);
  }

  /** A head no larger than a sorted tail makes a sorted sequence. */
  lemma SortedCons<T>(h: T, t: seq<T>, key: T -> int)
    requires SortedBy(t, key) && KeysAtLeast(t, key, key(h))
    ensures SortedBy([h] + t, key)
  {
    var r := [h] + t;
    forall i, j | 0 <= i < j < |r|
      ensures key(r[i]) <= key(r[j])
    {
      assert r[j] == t[j - 1];
      if i > 0 {
        assert r[i] == t[i - 1];
      }
    }
  }

  /** Inserting an element above a bound keeps every key above it. */
  lemma {:induction false} InsertKeysAtLeast<T>(x: T, s: seq<T>, key: T -> int, b: int)
    requires b <= key(x) && KeysAtLeast(s, key, b)
    ensures KeysAtLeast(Insert(x, s, key), key, b)
    decreases |s|
  {
    if !(s == [] || key(x) <= key(s[0])) {
      assert forall i :: 0 <= i < |s[1..]| ==> s[1..][i] == s[i + 1];
      InsertKeysAtLeast(x, s[1..], key, b);
      var r := Insert(x, s, key);
      assert forall i :: 1 <= i < |r| ==> r[i] == Insert(x, s[1..], key)[i - 1];
    }
  }

  /** Inserting into a sorted sequence keeps it sorted. */
  lemma {:induction false} InsertSorted<T>(x: T, s: seq<T>, key: T -> int)
    requires SortedBy(s, key)
    ensures SortedBy(Insert(x, s, key), key)
    decreases |s|
  {
    if s == [] || key(x) <= key(s[0]) {
      assert KeysAtLeast(s, key, key(x)) by {
        if s != [] {
          SortedSplit(s, key);
          assert forall i :: 0 < i < |s| ==> s[i] == s[1..][i - 1];
        }
      }
      SortedCons(x, s, key);
    } else {
      SortedSplit(s, key);
      InsertSorted(x, s[1..], key);
      InsertKeysAtLeast(x, s[1..], key, key(s[0]));
      SortedCons(s[0], Insert(x, s[1..], key), key);
    }
  }

  /** The stable sort of `xs` by `key`. */
  function SortBy<T>(xs: seq<T>, key: T -> int): (r: seq<T>)
    ensures |r| == |xs|
    ensures multiset(r) == multiset(xs)
    ensures SortedBy(r, key)
  {
    if xs == [] then []
    else
      assert xs == [xs[0]] + xs[1..];
      InsertSorted(xs[0], SortBy(xs[1..], key), key);
      Insert(xs[0], SortBy(xs[1..], key), key)
  }

  /** `OrderBy(...).ToList()` over a list of references: the key selector
      dereferences every entry before anything is returned, so a null entry
      throws and leaves the caller's list as it was. */
  function OrderBy<T>(xs: seq<Option<T>>, key: Option<T> -> int): (r: Result<seq<Option<T>>>)
    ensures r.Throws? <==> !NoNulls(xs)
    ensures r.Throws? ==> r.error == NullReference
    ensures r.Ok? ==> multiset(r.value) == multiset(xs)
    ensures r.Ok? ==> SortedBy(r.value, key)
    ensures r.Ok? ==> SameKeyClasses(r.value, xs, key)
  {
    if !NoNulls(xs) then Throws(NullReference)
    else
      SortByIsStable(xs, key);
      Ok(SortBy(xs, key))
  }

  lemma WithKeyCons<T>(x: T, s: seq<T>, key: T -> int, k: int)
    ensures WithKey([x] + s, key, k) == (if key(x) == k then [x] else []) + WithKey(s, key, k)
  {
    assert ([x] + s)[1..] == s;
  }

  /** Inserting `x` adds it in front of its key class and leaves every other
      class alone: the elements it is moved past all have smaller keys. */
  lemma {:induction false} InsertKeyClasses<T>(x: T, s: seq<T>, key: T -> int, k: int)
    ensures WithKey(Insert(x, s, key), key, k)
         == (if key(x) == k then [x] else []) + WithKey(s, key, k)
    decreases |s|
  {
    if s == [] || key(x) <= key(s[0]) {
      WithKeyCons(x, s, key, k);
    } else {
      assert s == [s[0]] + s[1..];
      InsertKeyClasses(x, s[1..], key, k);
      WithKeyCons(s[0], Insert(x, s[1..], key), key, k);
      WithKeyCons(s[0], s[1..], key, k);
    }
  }

  /** `SortBy` is stable: each key class keeps its input order. */
  lemma {:induction false} SortByIsStable<T>(xs: seq<T>, key: T -> int)
    ensures SameKeyClasses(SortBy(xs, key), xs, key)
    decreases |xs|
  {
    if xs != [] {
      SortByIsStable(xs[1..], key);
      forall k
        ensures WithKey(SortBy(xs, key), key, k) == WithKey(xs, key, k)
      {
        InsertKeyClasses(xs[0], SortBy(xs[1..], key), key, k);
        WithKeyCons(xs[0], xs[1..], key, k);
        assert xs == [xs[0]] + xs[1..];
      }
    }
  }

  lemma WithKeyEmpty<T>(xs: seq<T>, key: T -> int)
    requires xs != []
    ensures WithKey(xs, key, key(xs[0])) != []
  {
  }

  /** Every element of a key class carries that key and comes from `xs`. */
  lemma {:induction false} WithKeyMembers<T>(xs: seq<T>, key: T -> int, k: int, y: T)
    requires y in WithKey(xs, key, k)
    ensures y in xs && key(y) == k
    decreases |xs|
  {
    if xs != [] {
      WithKeyCons(xs[0], xs[1..], key, k);
      assert xs == [xs[0]] + xs[1..];
      if !(y == xs[0] && key(xs[0]) == k) {
        WithKeyMembers(xs[1..], key, k, y);
      }
    }
  }

  /** In a sorted sequence, a key that has elements is at least the first key. */
  lemma ClassHeadBound<T>(xs: seq<T>, key: T -> int, k: int)
    requires SortedBy(xs, key) && WithKey(xs, key, k) != []
    ensures xs != [] && key(xs[0]) <= k
  {
    var z := WithKey(xs, key, k)[0];
    WithKeyMembers(xs, key, k, z);
    var j :| 0 <= j < |xs| && xs[j] == z;
    assert key(xs[0]) <= key(xs[j]);
  }

  /** Two sorted sequences with the same key classes start alike. */
  lemma SameHead<T>(a: seq<T>, b: seq<T>, key: T -> int)
    requires SortedBy(a, key) && SortedBy(b, key)
    requires SameKeyClasses(a, b, key)
    requires a != []
    ensures b != [] && a[0] == b[0]
  {
    // each side has the other's smallest key
    WithKeyEmpty(a, key);
    assert WithKey(a, key, key(a[0])) == WithKey(b, key, key(a[0]));
    ClassHeadBound(b, key, key(a[0]));
    WithKeyEmpty(b, key);
    assert WithKey(a, key, key(b[0])) == WithKey(b, key, key(b[0]));
    ClassHeadBound(a, key, key(b[0]));
    // so both heads lead the class of that key
    var x, y, k := a[0], b[0], key(a[0]);
    assert a == [x] + a[1..];
    assert b == [y] + b[1..];
    WithKeyCons(x, a[1..], key, k);
    WithKeyCons(y, b[1..], key, k);
    var ca, cb := WithKey(a[1..], key, k), WithKey(b[1..], key, k);
    assert [x] + ca == WithKey(a, key, k) == WithKey(b, key, k) == [y] + cb;
    assert ([x] + ca)[0] == x && ([y] + cb)[0] == y;
  }

  /** Dropping a common head keeps the key classes equal. */
  lemma SameTailClasses<T>(a: seq<T>, b: seq<T>, key: T -> int)
    requires SameKeyClasses(a, b, key)
    requires a != [] && b != [] && a[0] == b[0]
    ensures SameKeyClasses(a[1..], b[1..], key)
  {
    var x := a[0];
    assert a == [x] + a[1..];
    assert b == [x] + b[1..];
    forall k
      ensures WithKey(a[1..], key, k) == WithKey(b[1..], key, k)
    {
      WithKeyCons(x, a[1..], key, k);
      WithKeyCons(x, b[1..], key, k);
      var p: seq<T> := if key(x) == k then [x] else [];
      var ra, rb := WithKey(a[1..], key, k), WithKey(b[1..], key, k);
      assert p + ra == WithKey(a, key, k) == WithKey(b, key, k) == p + rb;
      assert (p + ra)[|p|..] == ra && (p + rb)[|p|..] == rb;
    }
  }

  lemma SortedTail<T>(xs: seq<T>, key: T -> int)
    requires xs != [] && SortedBy(xs, key)
    ensures SortedBy(xs[1..], key)
  {
    forall i, j | 0 <= i < j < |xs[1..]|
      ensures key(xs[1..][i]) <= key(xs[1..][j])
    {
      assert xs[1..][i] == xs[i + 1] && xs[1..][j] == xs[j + 1];
    }
  }

  /** Two sequences that are sorted by key and agree on every key class are
      equal: sortedness fixes the order of the classes, stability the order
      inside each class. */
  lemma {:induction false} StableSortUnique<T>(a: seq<T>, b: seq<T>, key: T -> int)
    requires SortedBy(a, key) && SortedBy(b, key)
    requires SameKeyClasses(a, b, key)
    ensures a == b
    decreases |a|
  {
    if a != [] {
      SameHead(a, b, key);
      SameTailClasses(a, b, key);
      SortedTail(a, key);
      SortedTail(b, key);
      StableSortUnique(a[1..], b[1..], key);
      assert a == [a[0]] + a[1..] && b == [b[0]] + b[1..];
    } else if b != [] {
      SameKeyClassesSymmetric(a, b, key);
      SameHead(b, a, key);
    }
  }

  lemma SameKeyClassesSymmetric<T>(a: seq<T>, b: seq<T>, key: T -> int)
    requires SameKeyClasses(a, b, key)
    ensures SameKeyClasses(b, a, key)
  {
  }

  /** A sequence already ordered by key is its own stable sort. */
  lemma {:induction false} SortBySorted<T>(xs: seq<T>, key: T -> int)
    requires SortedBy(xs, key)
    ensures SortBy(xs, key) == xs
  {
    SortByIsStable(xs, key);
    StableSortUnique(SortBy(xs, key), xs, key);
  }

  /** `r` is the stable sort of `xs` exactly when it is ordered by key and
      keeps every key class in input order. */
  lemma SortByCharacterization<T>(xs: seq<T>, r: seq<T>, key: T -> int)
    ensures r == SortBy(xs, key) <==> SortedBy(r, key) && SameKeyClasses(r, xs, key)
  {
    SortByIsStable(xs, key);
    if SortedBy(r, key) && SameKeyClasses(r, xs, key) {
      StableSortUnique(r, SortBy(xs, key), key);
    }
  }

  /** Sorting twice is sorting once. */
  lemma {:induction false} SortByIdempotent<T>(xs: seq<T>, key: T -> int)
    ensures SortBy(SortBy(xs, key), key) == SortBy(xs, key)
  {
    SortBySorted(SortBy(xs, key), key);
  }
}

=== FILE: sub_tool.dfy ===
/**
 `SubToolBase`: a tool row inside a module. What is modelled is its
 construction defaults, the `AllowUpdate` flag that (un)subscribes the tool's
 update callback with the editor, and the guarded execute pipeline.
 */
module SubTools {
  import opened Host
  import Pipeline

  /** The delegate `new CallbackFunction(Update)` bound to the tool `owner`. */
  datatype Callback = Callback(owner: nat)

  /** A sub-tool. `subscriptions` counts how often `updateCallback` sits in
      the editor's update delegate; `callbacksCreated` counts how often the
      tool constructed that delegate. */
  datatype SubTool = SubTool(
    handle: nat,
    name: string,
    description: string,
    gameConfiguration: Option<string>,
    orderInUI: int,
    allowUpdate: bool,
    updateCallback: Option<Callback>,
    callbacksCreated: nat,
    subscriptions: nat,
    expandSettings: bool)

  /** A tool together with the host effects one of its operations caused. */
  datatype Step = Step(tool: SubTool, effects: seq<Effect>)

  /** The callback is subscribed exactly once while updates are allowed and
      not at all otherwise, and it was constructed at most once. */
  predicate UpdateInvariant(t: SubTool) {
    && t.subscriptions == (if t.allowUpdate then 1 else 0)
    && (t.allowUpdate ==> t.updateCallback.Some?)
    && t.callbacksCreated == (if t.updateCallback.Some? then 1 else 0)
  }

  /** The constructor: name, description and order come from the type's
      `UIDefinitionAttribute` when it has one, and are the base-tool
      defaults otherwise. `SetupSettings` is abstract and not modelled. */
  function NewSubTool(handle: nat, attr: Option<UIDefinition>): (t: SubTool)
    ensures attr.None? ==> t.name == "Base Tool" && t.description == "Base Tool description"
                           && t.orderInUI == 0
    ensures attr.Some? ==> t.name == attr.value.friendlyName
                           && t.description == attr.value.description
                           && t.orderInUI == attr.value.orderInUI
    ensures t.handle == handle && t.gameConfiguration == None
    ensures !t.allowUpdate && t.updateCallback == None && t.subscriptions == 0
    ensures UpdateInvariant(t)
  {
    var (name, description, order) :=
      match attr
      case Some(d) => (d.friendlyName, d.description, d.orderInUI)
      case None => ("Base Tool", "Base Tool description", 0);
    SubTool(handle, name, description, None, order, false, None, 0, 0, false)
  }

  /** `SetupUpdateCallback`: construct the delegate unless it exists. */
  function SetupUpdateCallback(t: SubTool): (r: Step)
    ensures r.tool.updateCallback.Some?
    ensures t.updateCallback.Some? ==> r == Step(t, [])
    ensures t.updateCallback.None? ==>
              && r.tool == t.(updateCallback := Some(Callback(t.handle)),
                              callbacksCreated := t.callbacksCreated + 1)
              && r.effects == [Log("Setting up Update callback for " + t.name)]
  {
    if t.updateCallback.None? then
      Step(t.(updateCallback := Some(Callback(t.handle)), callbacksCreated := t.callbacksCreated + 1),
           [Log("Setting up Update callback for " + t.name)])
    else Step(t, [])
  }

  /** `update -= callback` on a multicast delegate: removes one occurrence
      if there is one; removing a null delegate does nothing. */
  function Unsubscribed(t: SubTool): nat {
    if t.updateCallback.Some? && t.subscriptions > 0 then t.subscriptions - 1 else t.subscriptions
  }

  /** The `AllowUpdate` setter. */
  function SetAllowUpdate(t: SubTool, value: bool): (r: Step)
    ensures r.tool.allowUpdate == value
    ensures t.allowUpdate == value ==> r == Step(t, [])
    ensures UpdateInvariant(t) ==> UpdateInvariant(r.tool)
    ensures t.updateCallback.Some? ==> r.tool.updateCallback == t.updateCallback
    ensures r.tool.(allowUpdate := t.allowUpdate, updateCallback := t.updateCallback,
                    callbacksCreated := t.callbacksCreated, subscriptions := t.subscriptions) == t
    ensures SubscribeUpdate in r.effects <==> !t.allowUpdate && value
    ensures UnsubscribeUpdate in r.effects <==> t.allowUpdate && !value
  {
    if t.allowUpdate == value then Step(t, [])
    else if value then
      var setup := SetupUpdateCallback(t.(allowUpdate := true));
      Step(setup.tool.(subscriptions := setup.tool.subscriptions + 1), setup.effects + [SubscribeUpdate])
    else
      Step(t.(allowUpdate := false, subscriptions := Unsubscribed(t)), [UnsubscribeUpdate])
  }

  /** Setting the flag to each of `values` in turn. */
  function SetAllowUpdateAll(t: SubTool, values: seq<bool>): Step
    decreases |values|
  {
    if values == [] then Step(t, [])
    else
      var first := SetAllowUpdate(t, values[0]);
      var rest := SetAllowUpdateAll(first.tool, values[1..]);
      Step(rest.tool, first.effects + rest.effects)
  }

  /** One assignment: the subscribe and unsubscribe calls it makes account
      for the change in the subscription count. */
  lemma SetAllowUpdateBalance(t: SubTool, value: bool)
    requires UpdateInvariant(t)
    ensures var r := SetAllowUpdate(t, value);
            t.subscriptions + multiset(r.effects)[SubscribeUpdate]
            == r.tool.subscriptions + multiset(r.effects)[UnsubscribeUpdate]
  {
    var r := SetAllowUpdate(t, value);
    if t.allowUpdate != value && value {
      var setup := SetupUpdateCallback(t.(allowUpdate := true));
      assert multiset(r.effects) == multiset(setup.effects) + multiset{SubscribeUpdate};
      assert SubscribeUpdate !in setup.effects && UnsubscribeUpdate !in setup.effects;
    }
  }

  /** The state part of `TogglingKeepsOneSubscription`. */
  lemma {:induction false} TogglingKeepsInvariant(t: SubTool, values: seq<bool>)
    requires UpdateInvariant(t)
    ensures var r := SetAllowUpdateAll(t, values);
            && UpdateInvariant(r.tool)
            && (t.updateCallback.Some? ==> r.tool.updateCallback == t.updateCallback)
            && (values != [] ==> r.tool.allowUpdate == values[|values| - 1])
    decreases |values|
  {
    if values != [] {
      TogglingKeepsInvariant(SetAllowUpdate(t, values[0]).tool, values[1..]);
    }
  }

  /** The effect part of `TogglingKeepsOneSubscription`. */
  lemma {:induction false} TogglingBalances(t: SubTool, values: seq<bool>)
    requires UpdateInvariant(t)
    ensures var r := SetAllowUpdateAll(t, values);
            t.subscriptions + multiset(r.effects)[SubscribeUpdate]
            == r.tool.subscriptions + multiset(r.effects)[UnsubscribeUpdate]
    decreases |values|
  {
    if values != [] {
      var first := SetAllowUpdate(t, values[0]);
      SetAllowUpdateBalance(t, values[0]);
      TogglingBalances(first.tool, values[1..]);
      var rest := SetAllowUpdateAll(first.tool, values[1..]);
      assert multiset(first.effects + rest.effects) == multiset(first.effects) + multiset(rest.effects);
    }
  }

  /** However often the flag is toggled, the callback stays subscribed
      exactly when updates are allowed, it is constructed at most once and
      never replaced, and the subscribe and unsubscribe calls made balance
      to the current subscription count. */
  lemma {:induction false} TogglingKeepsOneSubscription(t: SubTool, values: seq<bool>)
    requires UpdateInvariant(t)
    ensures var r := SetAllowUpdateAll(t, values);
            && UpdateInvariant(r.tool)
            && r.tool.callbacksCreated <= 1
            && (t.updateCallback.Some? ==> r.tool.updateCallback == t.updateCallback)
            && (values != [] ==> r.tool.allowUpdate == values[|values| - 1])
            && t.subscriptions + multiset(r.effects)[SubscribeUpdate]
               == r.tool.subscriptions + multiset(r.effects)[UnsubscribeUpdate]
  {
    TogglingKeepsInvariant(t, values);
    TogglingBalances(t, values);
  }

  /** Setting the flag to the value it already has does nothing at all, and
      setting it twice to the same value is setting it once. */
  lemma SetAllowUpdateIdempotent(t: SubTool, value: bool)
    ensures SetAllowUpdate(SetAllowUpdate(t, value).tool, value) == Step(SetAllowUpdate(t, value).tool, [])
  {
  }

  /** The base `Prepare`: refuse a null (or destroyed) target; otherwise
      record a hierarchy undo and, for an object outside any scene (a prefab
      instance), its prefab modifications. */
  function Prepare(t: SubTool, target: Option<GameObject>): (r: Pipeline.Prepared)
    ensures r.ok <==> target.Some?
    ensures !r.ok ==> r.effects == [LogError("No avatar selected")]
    ensures r.ok ==> RegisterHierarchyUndo(target.value, t.name) in r.effects
    ensures r.ok ==> (RecordPrefabModifications(target.value) in r.effects <==> target.value.sceneName.None?)
  {
    match target
    case None => Pipeline.Prepared(false, [LogError("No avatar selected")])
    case Some(g) =>
      Pipeline.Prepared(true, [Log("Registering undo: " + t.name), RegisterHierarchyUndo(g, t.name)]
                     + (if g.sceneName.None? then [RecordPrefabModifications(g)] else []))
  }

  /** The result of `TryExecute`. */
  datatype Executed = Executed(ok: bool, actionCalled: bool, effects: seq<Effect>)

  /** `TryExecute` with the base `Prepare` and `Finish` and a `DoAction`
      (abstract in the base class) that did `act`. */
  function TryExecute(t: SubTool, target: Option<GameObject>, act: Pipeline.Outcome<bool>): (r: Executed)
    ensures r.ok <==> target.Some? && act == Pipeline.Returns(true)
    ensures r.actionCalled <==> target.Some?
    ensures Log(t.name + " completed successfully.") in r.effects <==> r.ok
    ensures LogError("No avatar selected") in r.effects <==> target.None?
    ensures (exists e :: LogException(e) in r.effects) <==> target.Some? && act.Raises?
  {
    var prepared := Prepare(t, target);
    var run := Pipeline.TryRun(Pipeline.Returns(prepared.ok), act, Pipeline.Returns(()));
    var finished := if Pipeline.FinishStage in run.stages then [Log(t.name + " completed successfully.")] else [];
    var logged := if run.caught.Some? then [LogException(run.caught.value)] else [];
    // the completion message is longer than the undo message, so they differ
    assert |t.name + " completed successfully."| != |"Registering undo: " + t.name|;
    Executed(run.ok, Pipeline.ActStage in run.stages, prepared.effects + finished + logged)
  }
}

=== FILE: ui_module.dfy ===
/**
 `UIModuleBase`: a foldout section of the tools window holding sub-tools and
 child modules. Modelled: the constructor defaults, the lazily built label,
 and the stable ordering of the sub-tools.
 */
module UIModules {
  import opened Host
  import opened StableSort
  import opened SubTools

  /** A module. Lists are nullable and may hold null entries, as the C#
      properties allow; `labelCache` is the backing field of `LabelContent`. */
  datatype Module = Module(
    handle: nat,
    name: string,
    description: string,
    gameConfiguration: Option<string>,
    orderInUI: int,
    isExpanded: bool,
    isHidden: bool,
    subTools: Option<seq<Option<SubTool>>>,
    childModules: Option<seq<Option<Module>>>,
    labelCache: Option<Label>)

  /** The constructor. With a `UIDefinitionAttribute` the name, description
      and order come from it and the configuration string stays null;
      without one the generic defaults are used and the order stays 0. */
  function NewModule(handle: nat, attr: Option<UIDefinition>): (m: Module)
    ensures attr.None? ==> && m.name == "Generic Module"
                           && m.description == "A generic module"
                           && m.gameConfiguration == Some("generic")
                           && m.orderInUI == 0
    ensures attr.Some? ==> && m.name == attr.value.friendlyName
                           && m.description == attr.value.description
                           && m.orderInUI == attr.value.orderInUI
                           && m.gameConfiguration == None
    ensures m.handle == handle && !m.isExpanded && !m.isHidden && m.labelCache == None
    ensures m.subTools == Some([]) && m.childModules == Some([])
  {
    var m := Module(handle, "", "", None, 0, false, false, Some([]), Some([]), None);
    match attr
    case Some(d) => m.(name := d.friendlyName, description := d.description, orderInUI := d.orderInUI)
    case None => m.(name := "Generic Module", description := "A generic module", gameConfiguration := Some("generic"))
  }

  /** A module together with the label its `LabelContent` getter returned. */
  datatype LabelRead = LabelRead(holder: Module, content: Label)

  /** The `LabelContent` getter: the cached label, or a new one built from
      the current name and description, which is then cached. */
  function GetLabelContent(m: Module): (r: LabelRead)
    ensures m.labelCache.Some? ==> r == LabelRead(m, m.labelCache.value)
    ensures m.labelCache.None? ==> r.content == Label(m.name, m.description)
    ensures r.holder == m.(labelCache := Some(r.content))
  {
    var c := GetOrCreate(m.labelCache, Label(m.name, m.description));
    LabelRead(m.(labelCache := c.cache), c.value)
  }

  /** The `LabelContent` setter: replaces the cache (null clears it). */
  function SetLabelContent(m: Module, l: Option<Label>): (r: Module)
    ensures r.labelCache == l
    ensures r.(labelCache := m.labelCache) == m
  {
    m.(labelCache := l)
  }

  /** The label is built once: a second read returns the same label and
      changes nothing, even after the name was changed in between. A label
      that was assigned is what the next read returns, and clearing it makes
      the next read rebuild it from the current name and description. */
  lemma LabelContentIsCached(m: Module, newName: string, l: Label)
    ensures var first := GetLabelContent(m);
            GetLabelContent(first.holder) == first
    ensures var first := GetLabelContent(m);
            GetLabelContent(first.holder.(name := newName)).content == first.content
    ensures GetLabelContent(SetLabelContent(m, Some(l))).content == l
    ensures GetLabelContent(SetLabelContent(m, None)).content == Label(m.name, m.description)
  {
    GetOrCreateIsStable(m.labelCache, Label(m.name, m.description), Label(m.name, m.description));
  }

  /** The sort key of a sub-tool entry (entries are known non-null when it
      is used). */
  function ToolOrder(t: Option<SubTool>): int {
    if t.Some? then t.value.orderInUI else 0
  }

  /** Whether `OrderSubTools` returns early: the list is null or empty. */
  predicate NoSubTools(m: Module) {
    m.subTools.None? || m.subTools.value == []
  }

  /** `OrderSubTools`: nothing when the list is null or empty; otherwise the
      list is replaced by its stable sort on `OrderInUI`, and a null entry
      throws before anything is replaced. */
  function OrderSubTools(m: Module): (r: Result<Module>)
    ensures NoSubTools(m) ==> r == Ok(m)
    ensures !NoSubTools(m) ==> (r.Throws? <==> !NoNulls(m.subTools.value))
    ensures r.Throws? ==> r.error == NullReference
    ensures r.Ok? ==> r.value.(subTools := m.subTools) == m
    ensures r.Ok? && !NoSubTools(m) ==>
              && r.value.subTools.Some?
              && var before, after := m.subTools.value, r.value.subTools.value;
              && multiset(after) == multiset(before)
              && SortedBy(after, ToolOrder)
              && SameKeyClasses(after, before, ToolOrder)
  {
    if NoSubTools(m) then Ok(m)
    else
      match OrderBy(m.subTools.value, ToolOrder)
      case Throws(e) => Throws(e)
      case Ok(sorted) => Ok(m.(subTools := Some(sorted)))
  }

  /** Ordering the sub-tools twice is ordering them once. */
  lemma OrderSubToolsIdempotent(m: Module)
    requires OrderSubTools(m).Ok?
    ensures OrderSubTools(OrderSubTools(m).value) == OrderSubTools(m)
  {
    if !NoSubTools(m) {
      var tools := m.subTools.value;
      var once := OrderSubTools(m).value;
      var sorted := once.subTools.value;
      assert |multiset(sorted)| == |multiset(tools)|;
      forall i | 0 <= i < |sorted|
        ensures sorted[i].Some?
      {
        assert sorted[i] in multiset(tools);
      }
      var twice := OrderSubTools(once);
      StableSortUnique(twice.value.subTools.value, sorted, ToolOrder);
    }
  }

  /** A new module is ready for use: ordering its (empty) sub-tool list
      succeeds and changes nothing, and its first label is built from the
      name and description the constructor chose. */
  lemma NewModuleIsReady(handle: nat, attr: Option<UIDefinition>)
    ensures OrderSubTools(NewModule(handle, attr)) == Ok(NewModule(handle, attr))
    ensures var m := NewModule(handle, attr);
            && GetLabelContent(m).content == Label(m.name, m.description)
            && GetLabelContent(m).holder == m.(labelCache := Some(Label(m.name, m.description)))
    ensures attr.None? ==> GetLabelContent(NewModule(handle, attr)).content == Label("Generic Module", "A generic module")
    ensures attr.Some? ==>
              GetLabelContent(NewModule(handle, attr)).content == Label(attr.value.friendlyName, attr.value.description)
  {
  }
}
